=== FILE: README.md ===
# Coinglass ingestion pipeline, modelled in Dafny

This project models the core of `coinglass_pipeline.py`. That file pulls
derivatives history (open interest, funding rate, long/short ratio,
liquidations) for BTC and ETH from the Coinglass REST API and stores it in
SQLite. The model covers four parts:

- **`CoinglassClient._get`** (`client.dfy`). This is the bounded retry loop.
  A network error or a non-200 status is retried, after a 2-second sleep,
  up to 3 attempts in all. A 200 whose body is not JSON fails at once. An
  envelope whose `code` is not `"0"` fails at once, carrying `msg`.
  Otherwise `_get` returns `data`, or `[]` when `data` is absent. The
  transport is a function from attempt number to reply, and sleeps are
  counted rather than waited. `raise_for_status` is modelled exactly: it
  raises only for 4xx/5xx. On the last attempt, any other non-200 status
  falls through to JSON decoding, as in the code. `GetLoop` proves that
  the fallback `raise` after the loop (line 103) can never be reached.
  The `fetch_*_history` parameter builders and `fetch_generic` are
  modelled too.
- **Record mapping** (`mapper.dfy`). The list comprehensions of the
  `insert_*` methods turn JSON records into rows. Columns are read left to
  right, so the first missing or non-numeric field decides the exception.
  The long/short columns take `top_account_*`, else `global_account_*`,
  else 0. A whole payload is mapped before anything is written, so one bad
  record fails the call.
- **`DataStorage`** (`store.dfy`). Each typed table is a map from its
  primary key to its row. A batch `INSERT OR IGNORE` is a fold in which the
  first row for a key wins and stored rows are never replaced. The key is
  (symbol, time) for `open_interest`, `funding_rate` and `liquidations`,
  and (symbol, exchange, time, category) for `long_short_ratio`.
  `raw_api_data` is a sequence that grows by one row per payload element.
- **The `__main__` run** (`pipeline.dfy`). For each symbol there are four
  fetch-then-insert steps inside one `try`. An exception abandons the rest
  of that symbol's steps and the loop carries on. The loops are written
  over any step function. `StepOver(net)` is the pipeline's own step, and
  `PipelineStepOnlyAddsRows` ties the two together. The two extra endpoints
  follow, each in its own `try`, with their payloads going to the raw log;
  that loop is likewise written over any endpoint step, and `ExtraOver(net, now)`
  is the pipeline's own.

JSON documents are decoded values (`json.dfy`). An object keeps its members
in document order. Lookup is last-wins, as for a dict built by `json.loads`.
Iterating a payload follows Python: a list yields its items, a dict its
keys and a string its characters. Iterating null, a boolean or a number
raises. `int()` and `float()` raise a TypeError on null, lists and
objects, and `int()` truncates toward zero. String contents are opaque.

Further facts about the code that the model keeps:
- The client has no rate limiter. Requests are limited only by the retry loop.
- A failed retry sequence re-raises the last network error or HTTP error.
  The `RuntimeError("Failed to get valid response after retries")` of line
  103 is unreachable, which `Client.GetLoop` proves.
- Every column read as `d[...]` is mandatory: `time` and every numeric
  column (`open`/`high`/`low`/`close`, `aggregated_*_liquidation_usd`).
- The `insert_*` methods return `None`. The count they log is the number of
  mapped rows, not the number of rows actually inserted.

## Model

| member | source | states |
|---|---|---|
| `Json.Lookup` | coinglass_pipeline.py:100-102 | `d.get(key)` is absent exactly when no member has that key; otherwise it is the value of the last member with that key |
| `Json.FirstIndex` | coinglass_pipeline.py:280 | the position of the first member with a key is below the length exactly when the key is present, holds that key, and no earlier member has it |
| `Json.Keys` | coinglass_pipeline.py:280 | iterating a dict yields each of its keys exactly once, and nothing else, in the order of each key's first member |
| `Json.Iterate` | coinglass_pipeline.py:280 | `for x in v` succeeds exactly for lists, dicts and strings; a list yields its items, a dict its keys in order, a string its one-character strings in order; the result is empty exactly for `[]`, `{}` and `""` |
| `Json.Trunc` | coinglass_pipeline.py:274 | `int()` of a float truncates toward zero: the result is within 1 of the input, on the zero side |
| `Json.TruncOfInteger` | coinglass_pipeline.py:274 | `int()` of a whole number gives that number back |
| `Json.ToFloat` | coinglass_pipeline.py:275-278 | `float(v)` succeeds exactly for booleans, numbers and strings (numbers are unbounded exact reals; the range limits are under Left out); a number is kept, `True`/`False` become 1.0/0.0 |
| `Json.ToInt` | coinglass_pipeline.py:274 | `int(v)` succeeds exactly for booleans, numbers and strings (numbers are unbounded exact reals; the range limits are under Left out); a number is truncated toward zero, `True`/`False` become 1/0 |
| `Json.ToIntIsIdempotent` | coinglass_pipeline.py:274 | `int(int(v))` equals `int(v)` |
| `Json.IntOfFloatIsInt` | coinglass_pipeline.py:274-278 | in the model, where numbers are exact reals, `int()` after `float()` of a boolean or a number equals `int()` of it, and on booleans and whole numbers `float()` and `int()` give the same value |
| `Client.Attempt` | coinglass_pipeline.py:80-102 | from attempt `a` on, the loop stops within 3 attempts; every reply it skipped was transient; it stops early only at a non-transient reply; it has slept once before every attempt but the first; the outcome is that of the reply it stopped at |
| `Client.Get` | coinglass_pipeline.py:76-103 | `_get` makes 1 to 3 attempts and sleeps `attempts - 1` times; it retries exactly the transient replies before the last attempt; the result is decided by the reply it stopped at |
| `Client.Interpret` | coinglass_pipeline.py:96-102 | a non-JSON body raises "Invalid JSON response", a non-dict document raises, a `code` other than "0" raises an API error carrying `msg` (null when absent); otherwise the result is `data`, or `[]` when `data` is absent |
| `Client.Settle` | coinglass_pipeline.py:84-95 | a reply the loop does not retry ends the call: a network error is re-raised, a 4xx/5xx status raises an HTTP error, and any other status goes on to decoding the body |
| `Client.GetLoop` | coinglass_pipeline.py:79-103 | the `for attempt in range(1, 4)` loop computes the same outcome as `Get`; the `raise` after the loop is unreachable |
| `Client.RecoversOnThirdAttempt` | coinglass_pipeline.py:79-95 | two transient failures followed by a good envelope return its `data` on attempt 3, after exactly 2 sleeps |
| `Client.GivesUpAfterThreeAttempts` | coinglass_pipeline.py:84-95 | three transient replies give exactly 3 attempts, never more. The third reply decides: a network error is re-raised, a 4xx/5xx raises an HTTP error, and any other status falls through to JSON decoding |
| `Client.InvalidJsonIsNotRetried` | coinglass_pipeline.py:96-99 | a 200 with a non-JSON body fails with "Invalid JSON response" on that attempt; no later reply is consulted |
| `Client.ApiErrorIsNotRetried` | coinglass_pipeline.py:100-101 | a 200 envelope whose `code` is not "0" fails on that attempt with an API error carrying `msg` (null when absent) |
| `Client.SuccessReturnsData` | coinglass_pipeline.py:100-102 | a 200 envelope with `code` "0" returns its `data`, or `[]` when `data` is absent, on that attempt |
| `Client.HistoryParams` | coinglass_pipeline.py:140-144 | the query always holds `symbol` and `interval`; it holds `exchangeName` only for the long/short ratio, and each time bound only when given; it holds no other key |
| `Client.Path` | coinglass_pipeline.py:43-48 | every dataset path of the `ENDPOINTS` table lies under `/futures/` |
| `Client.PathsAreDistinct` | coinglass_pipeline.py:43-48 | the four datasets are fetched from four different paths |
| `Client.FetchGeneric` | coinglass_pipeline.py:105-117 | `fetch_generic` runs `_get` on the given path with the given parameters, or with `{}` when none are given: 1 to 3 attempts, `attempts - 1` sleeps, every skipped reply transient, an early stop only at a non-transient reply, and the result decided by the reply it stopped at |
| `Client.FetchHistory` | coinglass_pipeline.py:120-194 | each `fetch_*_history` sends its dataset's path with its query to `_get`: 1 to 3 attempts, every skipped reply transient, an early stop only at a non-transient reply, and the result decided by the reply it stopped at |
| `Client.NoParamsIsEmptyQuery` | coinglass_pipeline.py:105-117 | `fetch_generic` without parameters makes exactly the call it makes with the empty query `{}` |
| `Mapper.ReadColumn` | coinglass_pipeline.py:274-278 | `int(d[name])`/`float(d[name])` raises KeyError for a missing field and TypeError for a non-numeric one; on success its value is the converted field |
| `Mapper.ReadColumns` | coinglass_pipeline.py:271-279 | a tuple of columns succeeds exactly when every column can be read, yielding one value per column in order; a failure is the error of the first failing column |
| `Mapper.MapOhlc` | coinglass_pipeline.py:271-281 | an OHLC record maps exactly when it is a dict with convertible `time`, `open`, `high`, `low` and `close`; a record without `time` raises KeyError("time"); a failing dict raises the error of its first failing column; the row carries the symbol and the converted fields |
| `Mapper.MapLiquidation` | coinglass_pipeline.py:331-339 | a liquidation record maps exactly when it is a dict with convertible `time` and both `aggregated_*_liquidation_usd` fields; a failing dict raises the error of its first failing column; the row carries the symbol and the converted fields |
| `Mapper.Pick` | coinglass_pipeline.py:313-315 | the `top_account_*` field wins when present, else the `global_account_*` field, else 0 |
| `Mapper.MapRatio` | coinglass_pipeline.py:311-316 | a ratio record maps exactly when it is a dict whose three picked ratio fields convert with `float()` and whose `time` converts with `int()`; the ratio fields are converted before `time` is read, so their error comes first; the row carries the given symbol, exchange and category and the converted values |
| `Mapper.RatioFallsBackToGlobal` | coinglass_pipeline.py:313 | a record with only `global_account_long_percent` takes `long_percent` from it, not 0 |
| `Mapper.MapAll` | coinglass_pipeline.py:271-281 | a batch maps exactly when every record maps, giving one row per record in order; otherwise the error is that of the first failing record |
| `Mapper.MapPayload` | coinglass_pipeline.py:271-281 | a payload maps exactly when it is iterable and every element maps, giving one row per element in order; a non-iterable payload raises TypeError; otherwise the error is that of the first failing element |
| `Store.InsertOrIgnore` | coinglass_pipeline.py:282-285 | INSERT OR IGNORE never changes a stored row; afterwards the table holds exactly the old keys plus the batch's keys |
| `Store.StoredRowIsFirstOfItsKey` | coinglass_pipeline.py:282-285 | a key added by a batch holds the first row of the batch with that key |
| `Store.StoredRowsAreFirstOfTheirKey` | coinglass_pipeline.py:282-285 | every key a batch adds holds the first row of the batch with that key |
| `Store.InsertKeepsWellKeyed` | coinglass_pipeline.py:216 | if every stored row sits under its own primary key, that still holds after a batch, so no two rows share a key |
| `Store.PresentKeysAreIgnored` | coinglass_pipeline.py:283 | a batch whose keys are all already stored leaves the table unchanged |
| `Store.InsertOrIgnoreIsIdempotent` | coinglass_pipeline.py:282-285 | inserting the same batch twice leaves the table as inserting it once |
| `Store.AppendRaw` | coinglass_pipeline.py:349-361 | the raw log grows by exactly one row per record, in input order, each tagged with the endpoint, parameters and time; earlier rows are kept |
| `Store.RawLogKeepsDuplicates` | coinglass_pipeline.py:258-266 | logging the same record twice keeps two identical rows |
| `Store.InsertOhlc` | coinglass_pipeline.py:270-306 | `insert_open_interest`/`insert_funding_rate` succeed exactly when the payload maps, and otherwise raise the mapping's error. The table then holds exactly its old keys plus the keys of the mapped rows; a new key holds the first mapped row with that key; no stored row is overwritten; every new key carries the given symbol; keys stay unique |
| `Store.InsertLiquidations` | coinglass_pipeline.py:330-345 | `insert_liquidations` succeeds exactly when the payload maps, and otherwise raises the mapping's error. The table then holds exactly its old keys plus the keys of the mapped rows; a new key holds the first mapped row with that key; no stored row is overwritten; every new key carries the given symbol; keys stay unique |
| `Store.InsertLongShortRatio` | coinglass_pipeline.py:308-328 | `insert_long_short_ratio` succeeds exactly when the payload maps, and otherwise raises the mapping's error. The table then holds exactly its old keys plus the keys of the mapped rows; a new key holds the first mapped row with that key; no stored row is overwritten; every new key carries the given symbol, exchange and category; keys stay unique |
| `Store.Insert` | coinglass_pipeline.py:270-345 | an `insert_*` call succeeds exactly when its payload maps, and otherwise raises the mapping's error; it then changes only the table of its kind, which holds exactly the old keys plus the mapped rows' keys; it keeps every stored row and leaves the raw log alone; new long/short keys carry the call's exchange and category; key uniqueness is preserved; the table of its kind is exactly what that table's insert function makes of it, so each new key holds the first mapped row with that key |
| `Store.InsertIsIdempotent` | coinglass_pipeline.py:216-254 | repeating a successful `insert_*` call with the same data leaves the database unchanged |
| `Store.InsertRawData` | coinglass_pipeline.py:347-363 | `insert_raw_data` succeeds exactly when the payload is iterable. It then appends one row per element, in order, each tagged with the endpoint, and leaves the typed tables alone |
| `Pipeline.RunStep` | coinglass_pipeline.py:379-389 | one fetch-then-insert step succeeds exactly when the fetch succeeds and the payload maps under its dataset's mapper; a failed fetch raises its error and a failed mapping the mapping's error; on success only the dataset's table changes, and it becomes what the dataset's `insert_*` call makes of it (long/short at Binance/"top"); stored rows, the raw log, key uniqueness and "top"-only long/short rows are kept |
| `Pipeline.StepBatch` | coinglass_pipeline.py:379-389 | each step inserts into the table of the dataset it fetched, for the same symbol, with the whole payload, and the long/short step with exchange "Binance" and category "top" |
| `Pipeline.PipelineStepOnlyAddsRows` | coinglass_pipeline.py:385-386 | the pipeline's step function satisfies the only-adds-rows property for every database, symbol and step |
| `Pipeline.RunSteps` | coinglass_pipeline.py:378-392 | a symbol's `try` block reports either completion or the index of a step that exists; the database it leaves is fixed step by step by `RunStepsSnoc` |
| `Pipeline.FailureStopsTheSymbol` | coinglass_pipeline.py:378-392 | if step k raises, the database is exactly what steps 0..k-1 alone produce, step k wrote nothing, and steps after k did not run |
| `Pipeline.StepsOnlyAddRows` | coinglass_pipeline.py:378-389 | a symbol's steps never overwrite a row, leave the raw log alone, keep keys unique and keep long/short rows "top" |
| `Pipeline.RunStepsSnoc` | coinglass_pipeline.py:378-392 | one more step after a block: nothing happens if the block already raised; otherwise the step runs on the block's database, and its result is kept on success, while on failure the block fails at that step's index with the database unchanged |
| `Pipeline.CompletedRunsEveryStep` | coinglass_pipeline.py:379-389 | when a symbol's block completes, every step ran and succeeded on the database the steps before it left, and the block's database is the last step's result (the starting database when there are no steps) |
| `Pipeline.Run` | coinglass_pipeline.py:377-392 | the symbol loop reports one outcome per symbol, failures included |
| `Pipeline.RunOnlyAddsRows` | coinglass_pipeline.py:377-392 | the symbol loop never overwrites a row, leaves the raw log alone, keeps keys unique and keeps long/short rows "top" |
| `Pipeline.RunSplits` | coinglass_pipeline.py:377 | running symbols `a + b` is running `a`, then `b` on the database `a` left |
| `Pipeline.RunOfTwo` | coinglass_pipeline.py:377-392 | the symbol loop over two symbols runs the second block on the database the first left, and reports both outcomes in order |
| `Pipeline.EverySymbolRuns` | coinglass_pipeline.py:390-392 | the i-th symbol always runs, on the database the earlier symbols left, whatever their outcomes |
| `Pipeline.RunLoop` | coinglass_pipeline.py:377-392 | the imperative symbol loop computes the same database and outcomes as `Run` |
| `Pipeline.RunExtra` | coinglass_pipeline.py:397-399 | fetching a generic endpoint and logging it succeeds exactly when the fetch succeeds and its payload is iterable; a failed fetch raises its error; on success only the raw log changes, growing by one row per payload element, in order, each tagged with the endpoint name, `{}` and the retrieval time |
| `Pipeline.PipelineExtraOnlyLogs` | coinglass_pipeline.py:397-398 | the pipeline's endpoint step, `fetch_generic` then `insert_raw_data`, only ever extends the raw log |
| `Pipeline.RunExtras` | coinglass_pipeline.py:396-401 | the endpoint loop reports one outcome per endpoint; with a step that only logs, the loop changes only the raw log, which it extends |
| `Pipeline.ExtrasSplit` | coinglass_pipeline.py:396 | running endpoints `a + b` is running `a`, then `b` on the database `a` left |
| `Pipeline.EveryEndpointRuns` | coinglass_pipeline.py:396-401 | the i-th extra endpoint is always fetched and logged, on the database the earlier endpoints left, whether or not they raised |
| `Pipeline.ExtrasSnoc` | coinglass_pipeline.py:396-401 | one more endpoint runs on the database the earlier endpoints left; its rows are kept when it succeeds, and the database is unchanged when it raises |
| `Pipeline.ExtrasOfTwo` | coinglass_pipeline.py:396-401 | the endpoint loop over two endpoints runs the second on the database the first left, and reports both outcomes in order |
| `Pipeline.PipelineRun` | coinglass_pipeline.py:369-404 | the BTC block runs on the database found and the ETH block on what BTC left; then `futures_supported_coins` and `futures_supported_exchange_pairs` run in that order, each on what came before, keeping its rows on success; the extras change only the raw log; stored rows are never overwritten, keys stay unique and long/short rows stay Binance/"top" |

## Left out

- HTTP session, headers, base-URL joining and `timeout=10` are not modelled. The transport is a function from (request, attempt) to reply.
- `time.sleep(2)` is not modelled as a wait. Sleeps are counted in `Fetch.sleeps`.
- The SQLite engine, `commit`, `close` and the `CREATE TABLE IF NOT EXISTS` DDL are not modelled. Tables are maps keyed by their declared primary keys, and the raw log is a sequence.
- Logging and the API-key warning are left out. They have no effect on data.
- `Json.ToInt`, `Json.ToFloat`: numbers are unbounded exact reals, so the range errors are not modelled. `json.loads` reads `1e400` as `inf` and accepts `NaN` and `Infinity`; `int()` of those raises OverflowError or ValueError, and `float()` of a JSON integer above about 1.8e308 raises OverflowError. In the code such a record fails its whole `insert_*` call and ends the symbol's block; the model maps it.
- `Json.ToInt`, `Json.ToFloat`: string contents are opaque. The ValueError for a non-numeric string is not modelled. Neither is the normalisation of a numeric string such as `"5"` into the number 5, so such a key is not identified with the numeric key 5.
- `Store.AppendRaw`: the model takes one retrieval time per run, `now`, shared by both extra endpoints. The code reads `time.time()` once per record.
- `json.dumps` of parameters and records is not modelled. Parameters and records are stored as decoded values.
- JSON numbers are Dafny reals. Floating-point rounding is not modelled.
- `coinglass_endpoints.py` is left out: it is static configuration. Only the two endpoint names and paths the run uses are copied.
- `fetch_btc_data_csv.py`, `streamlit_app.py` and `view_data.py` are left out. They are a CSV export script and read-only viewers.
- `Json.IntOfFloatIsInt`: stated for booleans and numbers only, and only for exact reals. In Python, `int("3.5")` raises while `int(float("3.5"))` is 3, and `float()` of an integer above 2^53 rounds it, so the equation does not carry over to strings or to very large integers.
- SQLite's 64-bit integer limit is not modelled. Binding a larger `int` raises OverflowError in the code; the model accepts it.

=== FILE: client.dfy ===
/** `CoinglassClient`: the retry loop and envelope check of `_get`, and the
    request builders `fetch_*_history` and `fetch_generic` that feed it.

    The transport is abstract. `Get` receives the reply the server gives to each
    attempt (attempts are numbered from 1), and a sleep of `BackoffSeconds` is
    counted instead of waited. */
module Client {
  import opened Wrappers
  import opened Json
  import opened Errors

  const MaxAttempts: nat := 3
  const BackoffSeconds: nat := 2
  /** The envelope `code` that marks success. */
  const SuccessCode: string := "0"

  /** What `resp.json()` makes of a body: a decoded document, or a ValueError. */
  datatype Body = NotJson | Parsed(doc: Value)

  /** The outcome of one `session.get`: an exception, or a response. */
  datatype Reply = NetErr | Response(status: int, body: Body)

  /** What one call of `_get` did: its return value or exception, how many
      requests it sent, and how many times it slept. */
  datatype Fetch = Fetch(result: Result<Value, Error>, attempts: nat, sleeps: nat)

  /** A reply that `_get` retries while attempts remain. */
  predicate Transient(reply: Reply) {
    reply.NetErr? || reply.status != 200
  }

  /** The statuses for which `raise_for_status()` raises: client and server errors. */
  predicate RaisesForStatus(status: int) {
    400 <= status < 600
  }

  /** Lines 96-102: decode the body, check the envelope, return `data` or `[]`. */
  function Interpret(body: Body): (r: Result<Value, Error>)
    ensures body.NotJson? ==> r == Failure(InvalidJson)
    ensures body.Parsed? && !body.doc.Obj? ==> r == Failure(EnvelopeNotObject)
    ensures r.Success? <==>
              body.Parsed? && body.doc.Obj? && HasKey(body.doc.members, "code")
              && Lookup(body.doc.members, "code").value == Str(SuccessCode)
    ensures r.Success? && HasKey(body.doc.members, "data") ==> r.value == Lookup(body.doc.members, "data").value
    ensures r.Success? && !HasKey(body.doc.members, "data") ==> r.value == Arr([])
    ensures body.Parsed? && body.doc.Obj? && r.Failure? ==>
              && (HasKey(body.doc.members, "msg") ==> r.error == ApiError(Lookup(body.doc.members, "msg").value))
              && (!HasKey(body.doc.members, "msg") ==> r.error == ApiError(Null))
  {
    match body
    case NotJson => Failure(InvalidJson)
    case Parsed(doc) =>
      if !doc.Obj? then Failure(EnvelopeNotObject)
      else if Lookup(doc.members, "code") != Some(Str(SuccessCode)) then
        Failure(ApiError(Lookup(doc.members, "msg").GetOr(Null)))
      else Success(Lookup(doc.members, "data").GetOr(Arr([])))
  }

  /** How `_get` ends on a reply it does not retry: a network error is re-raised,
      a 4xx/5xx status raises from `raise_for_status()`, and every other reply,
      including a non-200 status outside 4xx/5xx, goes on to JSON decoding. */
  function Settle(reply: Reply): (r: Result<Value, Error>)
    ensures reply.NetErr? ==> r == Failure(NetworkError)
    ensures reply.Response? && RaisesForStatus(reply.status) ==> r == Failure(HttpError(reply.status))
    ensures reply.Response? && !RaisesForStatus(reply.status) ==> r == Interpret(reply.body)
  {
    match reply
    case NetErr => Failure(NetworkError)
    case Response(status, body) =>
      if status != 200 && RaisesForStatus(status) then Failure(HttpError(status))
      else Interpret(body)
  }

  /** The loop of `_get` from attempt `attempt` on; it has slept once before
      every earlier attempt but the first. */
  function Attempt(replies: nat -> Reply, attempt: nat): (f: Fetch)
    requires 1 <= attempt <= MaxAttempts
    ensures attempt <= f.attempts <= MaxAttempts
    ensures f.sleeps == f.attempts - 1
    ensures forall a :: attempt <= a < f.attempts ==> Transient(replies(a))
    ensures f.attempts < MaxAttempts ==> !Transient(replies(f.attempts))
    ensures f.result == Settle(replies(f.attempts))
    decreases MaxAttempts - attempt
  {
    var reply := replies(attempt);
    if Transient(reply) && attempt < MaxAttempts then
      Attempt(replies, attempt + 1)
    else
      Fetch(Settle(reply), attempt, attempt - 1)
  }

  /** `_get`. The call stops at the first reply that is not transient, or at the
      third attempt; it sleeps once before every attempt but the first, and its
      outcome is decided by the reply it stopped at alone. */
  function Get(replies: nat -> Reply): (f: Fetch)
    ensures 1 <= f.attempts <= MaxAttempts
    ensures f.sleeps == f.attempts - 1
    ensures BackoffSeconds * f.sleeps <= BackoffSeconds * (MaxAttempts - 1)
    ensures forall a :: 1 <= a < f.attempts ==> Transient(replies(a))
    ensures f.attempts < MaxAttempts ==> !Transient(replies(f.attempts))
    ensures f.result == Settle(replies(f.attempts))
  {
    Attempt(replies, 1)
  }

  /** `_get` written as its loop. The statement after the loop (the final
      `raise` of line 103) is unreachable: every pass either retries with
      attempts to spare or returns. */
  method GetLoop(replies: nat -> Reply) returns (f: Fetch)
    ensures f == Get(replies)
  {
    var sleeps := 0;
    for attempt := 1 to MaxAttempts + 1
      invariant attempt <= MaxAttempts
      invariant sleeps == attempt - 1
      invariant Attempt(replies, attempt) == Get(replies)
    {
      var reply := replies(attempt);
      if reply.NetErr? {
        if attempt < MaxAttempts {
          sleeps := sleeps + 1;
          continue;
        }
        return Fetch(Failure(NetworkError), attempt, sleeps);
      }
      if reply.status != 200 {
        if attempt < MaxAttempts {
          sleeps := sleeps + 1;
          continue;
        }
        if RaisesForStatus(reply.status) {
          return Fetch(Failure(HttpError(reply.status)), attempt, sleeps);
        }
      }
      return Fetch(Interpret(reply.body), attempt, sleeps);
    }
    assert false;
  }

  /** Two transient failures followed by a good reply: the third attempt's
      reply is decoded and returned, after exactly two sleeps. */
  lemma RecoversOnThirdAttempt(replies: nat -> Reply, data: Value)
    requires Transient(replies(1)) && Transient(replies(2))
    requires replies(3) == Response(200, Parsed(Obj([Member("code", Str("0")), Member("data", data)])))
    ensures Get(replies) == Fetch(Success(data), 3, 2)
  {
    var members := [Member("code", Str("0")), Member("data", data)];
    assert Lookup(members, "code") == Some(Str("0"));
    assert Lookup(members, "data") == Some(data);
  }

  /** Three transient failures: exactly three attempts and two sleeps, never more.
      A network error is re-raised, a 4xx/5xx status raises an HTTP error, and any
      other non-200 status falls through to decoding the last body. */
  lemma GivesUpAfterThreeAttempts(replies: nat -> Reply)
    requires Transient(replies(1)) && Transient(replies(2)) && Transient(replies(3))
    ensures Get(replies).attempts == MaxAttempts && Get(replies).sleeps == 2
    ensures replies(3).NetErr? ==> Get(replies).result == Failure(NetworkError)
    ensures replies(3).Response? && RaisesForStatus(replies(3).status) ==>
      Get(replies).result == Failure(HttpError(replies(3).status))
    ensures replies(3).Response? && !RaisesForStatus(replies(3).status) ==>
      Get(replies).result == Interpret(replies(3).body)
  {
  }

  /** A 200 reply whose body is not JSON fails that attempt with "Invalid JSON
      response", and no later reply is consulted. */
  lemma InvalidJsonIsNotRetried(replies: nat -> Reply, k: nat)
    requires 1 <= k <= MaxAttempts
    requires forall a :: 1 <= a < k ==> Transient(replies(a))
    requires replies(k) == Response(200, NotJson)
    ensures Get(replies) == Fetch(Failure(InvalidJson), k, k - 1)
  {
  }

  /** A 200 reply carrying a JSON object whose `code` is not "0" fails that attempt
      with an API error holding `msg`; it is never retried. */
  lemma ApiErrorIsNotRetried(replies: nat -> Reply, k: nat, members: seq<Member>)
    requires 1 <= k <= MaxAttempts
    requires forall a :: 1 <= a < k ==> Transient(replies(a))
    requires replies(k) == Response(200, Parsed(Obj(members)))
    requires Lookup(members, "code") != Some(Str(SuccessCode))
    ensures Get(replies) == Fetch(Failure(ApiError(Lookup(members, "msg").GetOr(Null))), k, k - 1)
  {
  }

  /** A 200 reply carrying `"code": "0"` returns its `data` member, or `[]`
      when the envelope has none. */
  lemma SuccessReturnsData(replies: nat -> Reply, k: nat, members: seq<Member>)
    requires 1 <= k <= MaxAttempts
    requires forall a :: 1 <= a < k ==> Transient(replies(a))
    requires replies(k) == Response(200, Parsed(Obj(members)))
    requires Lookup(members, "code") == Some(Str(SuccessCode))
    ensures Get(replies).attempts == k
    ensures HasKey(members, "data") ==> Get(replies).result == Success(Lookup(members, "data").value)
    ensures !HasKey(members, "data") ==> Get(replies).result == Success(Arr([]))
  {
  }

  /** The four datasets of the pipeline and their paths (the `ENDPOINTS` table). */
  datatype Dataset = OpenInterest | FundingRate | LongShortRatio | Liquidations

  /** Every dataset path lies under the futures API. */
  const FuturesPrefix: string := "/futures/"

  function Path(d: Dataset): (p: string)
    ensures |p| > |FuturesPrefix| && p[..|FuturesPrefix|] == FuturesPrefix
  {
    var p := FuturesPrefix + match d
      case OpenInterest => "open-interest/aggregated-history"
      case FundingRate => "funding-rate/oi-weight-history"
      case LongShortRatio => "top-long-short-account-ratio/history"
      case Liquidations => "liquidation/aggregated-history";
    assert p[..|FuturesPrefix|] == FuturesPrefix;
    p
  }

  /** The four datasets are fetched from four different paths. */
  lemma PathsAreDistinct(a: Dataset, b: Dataset)
    ensures Path(a) == Path(b) <==> a == b
  {
  }

  /** One logical GET: an API path and its query parameters. */
  datatype Request = Request(path: string, params: map<string, Value>)

  /** The server as seen by the pipeline: its reply to attempt `a` of a request. */
  type Network = (Request, nat) -> Reply

  /** `_get(endpoint, params)` against `net`. */
  function Send(net: Network, req: Request): Fetch {
    Get((a: nat) => net(req, a))
  }

  /** The query parameters built by `fetch_*_history`: always `symbol` and
      `interval`, `exchangeName` for the long/short ratio only, and each time
      bound only when given. */
  function HistoryParams(dataset: Dataset, symbol: string, interval: string, exchange: string,
                         startTime: Option<int>, endTime: Option<int>): (p: map<string, Value>)
    ensures "symbol" in p && p["symbol"] == Str(symbol)
    ensures "interval" in p && p["interval"] == Str(interval)
    ensures "exchangeName" in p <==> dataset == LongShortRatio
    ensures "exchangeName" in p ==> p["exchangeName"] == Str(exchange)
    ensures "start_time" in p <==> startTime.Some?
    ensures "start_time" in p ==> p["start_time"] == Num(startTime.value as real)
    ensures "end_time" in p <==> endTime.Some?
    ensures "end_time" in p ==> p["end_time"] == Num(endTime.value as real)
    ensures p.Keys <= {"symbol", "interval", "exchangeName", "start_time", "end_time"}
  {
    var base := map["symbol" := Str(symbol), "interval" := Str(interval)];
    var withExchange := if dataset == LongShortRatio then base["exchangeName" := Str(exchange)] else base;
    var withStart := if startTime.Some? then withExchange["start_time" := Num(startTime.value as real)] else withExchange;
    if endTime.Some? then withStart["end_time" := Num(endTime.value as real)] else withStart
  }

  /** `fetch_open_interest_history`, `fetch_funding_rate_history`,
      `fetch_long_short_ratio_history` and `fetch_liquidation_history`. */
  function FetchHistory(net: Network, dataset: Dataset, symbol: string, interval: string, exchange: string,
                        startTime: Option<int>, endTime: Option<int>): (f: Fetch)
    ensures 1 <= f.attempts <= MaxAttempts && f.sleeps == f.attempts - 1
    ensures f.result
            == Settle(net(Request(Path(dataset), HistoryParams(dataset, symbol, interval, exchange, startTime, endTime)),
                          f.attempts))
    ensures forall a :: 1 <= a < f.attempts ==>
              Transient(net(Request(Path(dataset), HistoryParams(dataset, symbol, interval, exchange, startTime, endTime)), a))
    ensures f.attempts < MaxAttempts ==>
              !Transient(net(Request(Path(dataset), HistoryParams(dataset, symbol, interval, exchange, startTime, endTime)),
                             f.attempts))
  {
    Send(net, Request(Path(dataset), HistoryParams(dataset, symbol, interval, exchange, startTime, endTime)))
  }

  /** `fetch_generic`: `_get` on the given path, where absent parameters mean
      the empty query. */
  function FetchGeneric(net: Network, endpoint: string, params: Option<map<string, Value>>): (f: Fetch)
    ensures 1 <= f.attempts <= MaxAttempts && f.sleeps == f.attempts - 1
    ensures var q := if params.Some? then params.value else map[];
            && (forall a :: 1 <= a < f.attempts ==> Transient(net(Request(endpoint, q), a)))
            && (f.attempts < MaxAttempts ==> !Transient(net(Request(endpoint, q), f.attempts)))
            && f.result == Settle(net(Request(endpoint, q), f.attempts))
  {
    Send(net, Request(endpoint, params.GetOr(map[])))
  }

  /** Calling `fetch_generic` without parameters is calling it with `{}`. */
  lemma NoParamsIsEmptyQuery(net: Network, endpoint: string)
    ensures FetchGeneric(net, endpoint, None) == FetchGeneric(net, endpoint, Some(map[]))
  {
  }
}

=== FILE: errors.dfy ===
/** The exceptions the pipeline raises, one constructor per distinct cause. */
module Errors {
  import opened Json

  datatype Error =
    /** A `requests.RequestException` re-raised on the last attempt. */
    | NetworkError
    /** `raise_for_status()` on the last attempt: a 4xx or 5xx status. */
    | HttpError(status: int)
    /** A 200 response whose body is not JSON ("Invalid JSON response"). */
    | InvalidJson
    /** An envelope whose `code` is not "0"; carries `msg` (null when absent). */
    | ApiError(msg: Value)
    /** `.get` on a JSON document that is not an object (AttributeError). */
    | EnvelopeNotObject
    /** `for d in data` over null, a boolean or a number (TypeError). */
    | NotIterable
    /** An element of the payload that is not a JSON object (TypeError or AttributeError). */
    | NotARecord
    /** `d[name]` on a record without that field (KeyError). */
    | MissingField(name: string)
    /** `int()` or `float()` of null, a list or a dict (TypeError). */
    | NotNumeric
}

=== FILE: json.dfy ===
/** Decoded JSON documents, and the handful of Python operations the pipeline
    applies to them: `dict.get`, iteration with `for x in value`, and the
    `int(...)` / `float(...)` conversions of record fields. */
module Json {
  import opened Wrappers

  /** A JSON value as `json.loads` produces it. An object keeps its members in
      document order, as a Python dict keeps insertion order. */
  datatype Value =
    | Null
    | Bool(b: bool)
    | Num(n: real)
    | Str(s: string)
    | Arr(items: seq<Value>)
    | Obj(members: seq<Member>)

  datatype Member = Member(key: string, value: Value)

  /** Some member of `members` is named `key`. */
  ghost predicate HasKey(members: seq<Member>, key: string) {
    exists i :: 0 <= i < |members| && members[i].key == key
  }

  /** `d.get(key)`: when a document repeats a key, the dict built by `json.loads`
      holds the last value written for it. */
  function Lookup(members: seq<Member>, key: string): (r: Option<Value>)
    ensures r.None? <==> !HasKey(members, key)
    ensures r.Some? ==>
      exists i :: 0 <= i < |members| && members[i] == Member(key, r.value)
                  && forall j :: i < j < |members| ==> members[j].key != key
  {
    if |members| == 0 then None
    else if members[|members| - 1].key == key then Some(members[|members| - 1].value)
    else
      var r := Lookup(members[..|members| - 1], key);
      assert forall i :: 0 <= i < |members| - 1 ==> members[..|members| - 1][i] == members[i];
      r
  }

  /** The position of the first member named `key`, or `|members|` when there is none. */
  function FirstIndex(members: seq<Member>, key: string): (p: nat)
    ensures p <= |members|
    ensures p < |members| <==> HasKey(members, key)
    ensures p < |members| ==> members[p].key == key
    ensures forall q :: 0 <= q < p ==> members[q].key != key
  {
    if |members| == 0 then 0
    else if members[0].key == key then 0
    else
      var p := 1 + FirstIndex(members[1..], key);
      assert forall q :: 1 <= q < |members| ==> members[q] == members[1..][q - 1];
      p
  }

  /** The keys of a dict in iteration order: each distinct key once, at the
      position where it was first inserted. `seen` holds the keys already listed. */
  function KeysFrom(members: seq<Member>, seen: seq<string>): (ks: seq<string>)
    requires forall i, j :: 0 <= i < j < |seen| ==> seen[i] != seen[j]
    ensures |seen| <= |ks| && ks[..|seen|] == seen
    ensures forall i, j :: 0 <= i < j < |ks| ==> ks[i] != ks[j]
    ensures forall k :: k in ks <==> k in seen || HasKey(members, k)
    decreases |members|
  {
    if |members| == 0 then seen
    else
      var k := members[0].key;
      var seen' := if k in seen then seen else seen + [k];
      var ks := KeysFrom(members[1..], seen');
      assert forall k' :: HasKey(members, k') <==> k' == k || HasKey(members[1..], k') by {
        forall k' | HasKey(members, k')
          ensures k' == k || HasKey(members[1..], k')
        {
          var i :| 0 <= i < |members| && members[i].key == k';
          if i > 0 { assert members[1..][i - 1].key == k'; }
        }
        forall k' | HasKey(members[1..], k')
          ensures HasKey(members, k')
        {
          var i :| 0 <= i < |members[1..]| && members[1..][i].key == k';
          assert members[i + 1].key == k';
        }
      }
      assert k in seen';
      ks
  }

  /** The keys `KeysFrom` adds after the first member are neither that
      member's key nor among the keys already seen. */
  lemma KeysAfterHeadAreNew(seen: seq<string>, k: string, ks: seq<string>)
    requires k in seen
    requires |seen| <= |ks| && ks[..|seen|] == seen
    requires forall i, j :: 0 <= i < j < |ks| ==> ks[i] != ks[j]
    ensures forall i :: |seen| <= i < |ks| ==> ks[i] != k
  {
    var j :| 0 <= j < |seen| && seen[j] == k;
    assert ks[j] == k;
  }

  /** The keys `KeysFrom` adds come in the order of their first occurrence. */
  lemma {:induction false} KeysFromFollowFirstOccurrence(members: seq<Member>, seen: seq<string>, ks: seq<string>)
    requires forall i, j :: 0 <= i < j < |seen| ==> seen[i] != seen[j]
    requires ks == KeysFrom(members, seen)
    ensures forall i, j :: |seen| <= i < j < |ks| ==> FirstIndex(members, ks[i]) < FirstIndex(members, ks[j])
    decreases |members|
  {
    if |members| > 0 {
      var k := members[0].key;
      var seen' := if k in seen then seen else seen + [k];
      assert ks == KeysFrom(members[1..], seen');
      KeysFromFollowFirstOccurrence(members[1..], seen', ks);
      KeysAfterHeadAreNew(seen', k, ks);
      forall i, j | |seen| <= i < j < |ks|
        ensures FirstIndex(members, ks[i]) < FirstIndex(members, ks[j])
      {
        assert ks[j] != k;
        if i >= |seen'| {
          assert ks[i] != k;
        } else {
          assert ks[i] == k;
        }
      }
    }
  }

  /** Iterating a dict yields its distinct keys, in the order of their first insertion. */
  function Keys(members: seq<Member>): (ks: seq<string>)
    ensures forall i, j :: 0 <= i < j < |ks| ==> ks[i] != ks[j]
    ensures forall k :: k in ks <==> HasKey(members, k)
    ensures forall i, j :: 0 <= i < j < |ks| ==> FirstIndex(members, ks[i]) < FirstIndex(members, ks[j])
  {
    KeysFromFollowFirstOccurrence(members, [], KeysFrom(members, []));
    KeysFrom(members, [])
  }

  /** `for x in v`: a list yields its items, a dict its keys, a string its
      one-character strings; iterating null, a boolean or a number raises a
      TypeError, given here as `None`. */
  function Iterate(v: Value): (r: Option<seq<Value>>)
    ensures r.Some? <==> v.Arr? || v.Obj? || v.Str?
    ensures v.Arr? ==> r == Some(v.items)
    ensures v.Obj? ==> r.Some? && |r.value| == |Keys(v.members)|
                       && forall i :: 0 <= i < |r.value| ==> r.value[i] == Str(Keys(v.members)[i])
    ensures v.Str? ==> r.Some? && |r.value| == |v.s|
                       && forall i :: 0 <= i < |r.value| ==> r.value[i] == Str([v.s[i]])
    ensures r.Some? ==>
      (|r.value| == 0 <==> (v.Arr? && v.items == []) || (v.Obj? && v.members == []) || (v.Str? && v.s == ""))
  {
    match v
    case Arr(items) => Some(items)
    case Obj(members) =>
      var ks := Keys(members);
      Some(seq(|ks|, i requires 0 <= i < |ks| => Str(ks[i])))
    case Str(s) => Some(seq(|s|, i requires 0 <= i < |s| => Str([s[i]])))
    case _ => None
  }

  /** Python's `int()` on a float: truncation toward zero. */
  function Trunc(x: real): (t: int)
    ensures 0.0 <= x ==> t as real <= x < t as real + 1.0
    ensures x < 0.0 ==> t as real - 1.0 < x <= t as real
  {
    if 0.0 <= x then x.Floor else -((-x).Floor)
  }

  /** The values `int()` and `float()` accept without a TypeError. */
  predicate Numeric(v: Value) {
    v.Bool? || v.Num? || v.Str?
  }

  /** `float(v)`; `None` is the TypeError raised for null, a list or a dict. */
  function ToFloat(v: Value): (r: Option<Value>)
    ensures r.Some? <==> Numeric(v)
    ensures v.Num? ==> r == Some(v)
    ensures v.Bool? ==> r == Some(Num(if v.b then 1.0 else 0.0))
    ensures v.Str? ==> r == Some(v)
  {
    match v
    case Bool(b) => Some(Num(if b then 1.0 else 0.0))
    case Num(x) => Some(Num(x))
    case Str(s) => Some(Str(s))
    case _ => None
  }

  /** `int(v)`; `None` is the TypeError raised for null, a list or a dict. */
  function ToInt(v: Value): (r: Option<Value>)
    ensures r.Some? <==> Numeric(v)
    ensures v.Num? ==> r == Some(Num(Trunc(v.n) as real))
    ensures v.Bool? ==> r == Some(Num(if v.b then 1.0 else 0.0))
    ensures v.Str? ==> r == Some(v)
  {
    match v
    case Bool(b) => Some(Num(if b then 1.0 else 0.0))
    case Num(x) => Some(Num(Trunc(x) as real))
    case Str(s) => Some(Str(s))
    case _ => None
  }

  /** `int()` of a whole number gives the number back. */
  lemma TruncOfInteger(n: int)
    ensures Trunc(n as real) == n
  {
  }

  /** `int(int(v)) == int(v)`: the result of `int()` is a fixed point of it. */
  lemma ToIntIsIdempotent(v: Value)
    requires Numeric(v)
    ensures ToInt(ToInt(v).value) == ToInt(v)
  {
    if v.Num? {
      TruncOfInteger(Trunc(v.n));
    } else if v.Bool? {
      TruncOfInteger(if v.b then 1 else 0);
    }
  }

  /** On a boolean or a number, converting with `float()` before `int()` gives
      what `int()` gives directly, and on a boolean or a whole number `float()`
      and `int()` agree. Numbers are exact reals here, so this is a fact about
      the model: a float rounds an integer above 2^53, and a string is left out
      because `int()` rejects "3.5", which `float()` accepts. */
  lemma IntOfFloatIsInt(v: Value)
    requires Numeric(v)
    ensures v.Bool? || v.Num? ==> ToInt(ToFloat(v).value) == ToInt(v)
    ensures (v.Bool? || (v.Num? && v.n == v.n.Floor as real)) ==> ToFloat(v) == ToInt(v)
  {
    if v.Num? && v.n == v.n.Floor as real {
      TruncOfInteger(v.n.Floor);
    } else if v.Bool? {
      TruncOfInteger(if v.b then 1 else 0);
    }
  }
}

=== FILE: mapper.dfy ===
/** The list comprehensions of `DataStorage.insert_*`: each JSON record becomes a
    fixed-shape row, and a whole payload is mapped before anything is written, so
    one bad record fails the call with no row built. */
module Mapper {
  import opened Wrappers
  import opened Json
  import opened Errors

  /** A row of `open_interest` or `funding_rate`. Numeric columns hold the value
      `int()`/`float()` produced; a string stays opaque. */
  datatype OhlcRow = OhlcRow(symbol: string, time: Value, open: Value, high: Value, low: Value, close: Value)

  /** A row of `long_short_ratio`. */
  datatype RatioRow = RatioRow(symbol: string, exchange: string, time: Value, longPercent: Value,
                               shortPercent: Value, longShortRatio: Value, category: string)

  /** A row of `liquidations`. */
  datatype LiquidationRow = LiquidationRow(symbol: string, time: Value, longUsd: Value, shortUsd: Value)

  /** A mandatory column: the field it is read from and whether `int()` or
      `float()` converts it. */
  datatype Column = IntCol(name: string) | FloatCol(name: string)

  /** The conversion a column applies. */
  function Convert(c: Column, v: Value): Option<Value> {
    if c.IntCol? then ToInt(v) else ToFloat(v)
  }

  /** `int(d[name])` or `float(d[name])`. */
  function ReadColumn(members: seq<Member>, c: Column): (r: Result<Value, Error>)
    ensures !HasKey(members, c.name) ==> r == Failure(MissingField(c.name))
    ensures HasKey(members, c.name) && !Numeric(Lookup(members, c.name).value) ==> r == Failure(NotNumeric)
    ensures r.Success? <==> HasKey(members, c.name) && Numeric(Lookup(members, c.name).value)
    ensures r.Success? ==> Convert(c, Lookup(members, c.name).value) == Some(r.value)
  {
    match Lookup(members, c.name)
    case None => Failure(MissingField(c.name))
    case Some(v) =>
      match Convert(c, v)
      case None => Failure(NotNumeric)
      case Some(x) => Success(x)
  }

  /** The record has every column, each convertible. */
  ghost predicate HasColumns(members: seq<Member>, cols: seq<Column>) {
    forall i :: 0 <= i < |cols| ==> ReadColumn(members, cols[i]).Success?
  }

  /** Reads `cols` left to right, as a Python tuple display evaluates its items;
      the first column that fails decides the exception. */
  function ReadColumns(members: seq<Member>, cols: seq<Column>): (r: Result<seq<Value>, Error>)
    ensures r.Success? <==> HasColumns(members, cols)
    ensures r.Success? ==>
              && |r.value| == |cols|
              && forall i :: 0 <= i < |cols| ==> ReadColumn(members, cols[i]) == Success(r.value[i])
    ensures r.Failure? ==>
              exists i :: && 0 <= i < |cols|
                          && ReadColumn(members, cols[i]) == Failure(r.error)
                          && forall j :: 0 <= j < i ==> ReadColumn(members, cols[j]).Success?
  {
    if |cols| == 0 then Success([])
    else
      var first :- ReadColumn(members, cols[0]);
      var rest :- ReadColumns(members, cols[1..]);
      Success([first] + rest)
  }

  const OhlcColumns: seq<Column> := [IntCol("time"), FloatCol("open"), FloatCol("high"), FloatCol("low"), FloatCol("close")]
  const LiquidationColumns: seq<Column> :=
    [IntCol("time"), FloatCol("aggregated_long_liquidation_usd"), FloatCol("aggregated_short_liquidation_usd")]

  /** One row of `insert_open_interest` / `insert_funding_rate`. */
  function MapOhlc(symbol: string, d: Value): (r: Result<OhlcRow, Error>)
    ensures !d.Obj? ==> r == Failure(NotARecord)
    ensures d.Obj? && !HasKey(d.members, "time") ==> r == Failure(MissingField("time"))
    ensures r.Success? <==> d.Obj? && HasColumns(d.members, OhlcColumns)
    ensures d.Obj? && r.Failure? ==> r.error == ReadColumns(d.members, OhlcColumns).error
    ensures r.Success? ==>
              && r.value.symbol == symbol
              && ReadColumn(d.members, IntCol("time")) == Success(r.value.time)
              && ReadColumn(d.members, FloatCol("open")) == Success(r.value.open)
              && ReadColumn(d.members, FloatCol("high")) == Success(r.value.high)
              && ReadColumn(d.members, FloatCol("low")) == Success(r.value.low)
              && ReadColumn(d.members, FloatCol("close")) == Success(r.value.close)
  {
    if !d.Obj? then Failure(NotARecord)
    else
      var v :- ReadColumns(d.members, OhlcColumns);
      Success(OhlcRow(symbol, v[0], v[1], v[2], v[3], v[4]))
  }

  /** One row of `insert_liquidations`. */
  function MapLiquidation(symbol: string, d: Value): (r: Result<LiquidationRow, Error>)
    ensures !d.Obj? ==> r == Failure(NotARecord)
    ensures d.Obj? && !HasKey(d.members, "time") ==> r == Failure(MissingField("time"))
    ensures r.Success? <==> d.Obj? && HasColumns(d.members, LiquidationColumns)
    ensures d.Obj? && r.Failure? ==> r.error == ReadColumns(d.members, LiquidationColumns).error
    ensures r.Success? ==>
              && r.value.symbol == symbol
              && ReadColumn(d.members, IntCol("time")) == Success(r.value.time)
              && ReadColumn(d.members, FloatCol("aggregated_long_liquidation_usd")) == Success(r.value.longUsd)
              && ReadColumn(d.members, FloatCol("aggregated_short_liquidation_usd")) == Success(r.value.shortUsd)
  {
    if !d.Obj? then Failure(NotARecord)
    else
      var v :- ReadColumns(d.members, LiquidationColumns);
      Success(LiquidationRow(symbol, v[0], v[1], v[2]))
  }

  /** `d.get(preferred, d.get(fallback, 0))`: the preferred field when present,
      else the fallback field when present, else 0. */
  function Pick(members: seq<Member>, preferred: string, fallback: string): (v: Value)
    ensures HasKey(members, preferred) ==> v == Lookup(members, preferred).value
    ensures !HasKey(members, preferred) && HasKey(members, fallback) ==> v == Lookup(members, fallback).value
    ensures !HasKey(members, preferred) && !HasKey(members, fallback) ==> v == Num(0.0)
  {
    Lookup(members, preferred).GetOr(Lookup(members, fallback).GetOr(Num(0.0)))
  }

  /** `float(d.get(...))` of a ratio column. */
  function PickFloat(members: seq<Member>, preferred: string, fallback: string): Result<Value, Error> {
    match ToFloat(Pick(members, preferred, fallback))
    case None => Failure(NotNumeric)
    case Some(x) => Success(x)
  }

  /** The three picked ratio values all convert with `float()`. */
  ghost predicate RatioPicksNumeric(members: seq<Member>) {
    && Numeric(Pick(members, "top_account_long_percent", "global_account_long_percent"))
    && Numeric(Pick(members, "top_account_short_percent", "global_account_short_percent"))
    && Numeric(Pick(members, "top_account_long_short_ratio", "global_account_long_short_ratio"))
  }

  /** One row of `insert_long_short_ratio`: the three ratio columns come from the
      `top_account_*` field, else the `global_account_*` field, else 0, and are
      converted before `time` is read. */
  function MapRatio(symbol: string, exchange: string, category: string, d: Value): (r: Result<RatioRow, Error>)
    ensures !d.Obj? ==> r == Failure(NotARecord)
    ensures r.Success? <==> d.Obj? && RatioPicksNumeric(d.members) && ReadColumn(d.members, IntCol("time")).Success?
    ensures d.Obj? && !RatioPicksNumeric(d.members) ==> r == Failure(NotNumeric)
    ensures d.Obj? && RatioPicksNumeric(d.members) && ReadColumn(d.members, IntCol("time")).Failure?
            ==> r == Failure(ReadColumn(d.members, IntCol("time")).error)
    ensures r.Success? ==> r.value.symbol == symbol && r.value.exchange == exchange && r.value.category == category
    ensures r.Success? ==> ReadColumn(d.members, IntCol("time")) == Success(r.value.time)
    ensures r.Success? ==>
              && ToFloat(Pick(d.members, "top_account_long_percent", "global_account_long_percent")) == Some(r.value.longPercent)
              && ToFloat(Pick(d.members, "top_account_short_percent", "global_account_short_percent")) == Some(r.value.shortPercent)
              && ToFloat(Pick(d.members, "top_account_long_short_ratio", "global_account_long_short_ratio"))
                 == Some(r.value.longShortRatio)
  {
    if !d.Obj? then Failure(NotARecord)
    else
      var longPct :- PickFloat(d.members, "top_account_long_percent", "global_account_long_percent");
      var shortPct :- PickFloat(d.members, "top_account_short_percent", "global_account_short_percent");
      var ratio :- PickFloat(d.members, "top_account_long_short_ratio", "global_account_long_short_ratio");
      var time :- ReadColumn(d.members, IntCol("time"));
      Success(RatioRow(symbol, exchange, time, longPct, shortPct, ratio, category))
  }

  /** A ratio record that carries only the `global_account_*` fields takes its
      values from them, not the default 0. */
  lemma RatioFallsBackToGlobal(symbol: string, exchange: string, category: string, d: Value)
    requires d.Obj?
    requires !HasKey(d.members, "top_account_long_percent")
    requires HasKey(d.members, "global_account_long_percent")
    requires MapRatio(symbol, exchange, category, d).Success?
    ensures Some(MapRatio(symbol, exchange, category, d).value.longPercent)
            == ToFloat(Lookup(d.members, "global_account_long_percent").value)
  {
  }

  /** Maps every record in order; the first failing record decides the exception
      and no row is returned, which is why a failing call writes nothing. */
  function MapAll<R>(records: seq<Value>, f: Value -> Result<R, Error>): (r: Result<seq<R>, Error>)
    ensures r.Success? <==> forall i :: 0 <= i < |records| ==> f(records[i]).Success?
    ensures r.Success? ==>
              && |r.value| == |records|
              && forall i :: 0 <= i < |records| ==> f(records[i]) == Success(r.value[i])
    ensures r.Failure? ==>
              exists i :: && 0 <= i < |records|
                          && f(records[i]) == Failure(r.error)
                          && forall j :: 0 <= j < i ==> f(records[j]).Success?
  {
    if |records| == 0 then Success([])
    else
      var first :- f(records[0]);
      var rest :- MapAll(records[1..], f);
      Success([first] + rest)
  }

  /** `[... for d in data]`: the payload is iterated (a TypeError if it cannot
      be) and every element mapped. */
  function MapPayload<R>(data: Value, f: Value -> Result<R, Error>): (r: Result<seq<R>, Error>)
    ensures Iterate(data).None? ==> r == Failure(NotIterable)
    ensures r.Success? <==>
              && Iterate(data).Some?
              && forall i :: 0 <= i < |Iterate(data).value| ==> f(Iterate(data).value[i]).Success?
    ensures r.Success? ==>
              && |r.value| == |Iterate(data).value|
              && forall i :: 0 <= i < |r.value| ==> f(Iterate(data).value[i]) == Success(r.value[i])
    ensures r.Failure? && Iterate(data).Some? ==>
              exists i :: && 0 <= i < |Iterate(data).value|
                          && f(Iterate(data).value[i]) == Failure(r.error)
                          && forall j :: 0 <= j < i ==> f(Iterate(data).value[j]).Success?
  {
    match Iterate(data)
    case None => Failure(NotIterable)
    case Some(records) => MapAll(records, f)
  }
}

=== FILE: pipeline.dfy ===
/** The `__main__` block: for each symbol, four fetch-then-insert steps in a
    fixed order inside one `try`; then two parameterless endpoints whose
    payloads go to the raw log, each inside its own `try`. An exception ends the
    current `try` block and the loop moves on. */
module Pipeline {
  import opened Wrappers
  import opened Json
  import opened Errors
  import opened Client
  import opened Mapper
  import opened Store

  const Symbols: seq<string> := ["BTC", "ETH"]
  const Interval: string := "4h"
  const ExchangeName: string := "Binance"
  /** The long/short step always stores its rows under this category. */
  const TopCategory: string := "top"

  /** The steps run for each symbol, in order. */
  const Steps: seq<Dataset> := [OpenInterest, FundingRate, LongShortRatio, Liquidations]

  /** The extra endpoints of the raw-log loop: name and path. */
  const ExtraEndpoints: seq<(string, string)> :=
    [("futures_supported_coins", "/futures/supported-coins"),
     ("futures_supported_exchange_pairs", "/futures/supported-exchange-pairs")]

  /** The dataset whose table an insert call writes. */
  function Target(b: Batch): Dataset {
    match b
    case OpenInterestBatch(_, _) => OpenInterest
    case FundingRateBatch(_, _) => FundingRate
    case LongShortBatch(_, _, _, _) => LongShortRatio
    case LiquidationBatch(_, _) => Liquidations
  }

  /** The insert call a step makes with the payload it fetched: the table of
      the dataset it fetched, the symbol it fetched for, the whole payload, and
      for the long/short ratio the fixed exchange and category. */
  function StepBatch(step: Dataset, symbol: string, payload: Value): (b: Batch)
    ensures Target(b) == step
    ensures b.symbol == symbol && b.data == payload
    ensures b.LongShortBatch? ==> b.exchange == ExchangeName && b.category == TopCategory
  {
    match step
    case OpenInterest => OpenInterestBatch(symbol, payload)
    case FundingRate => FundingRateBatch(symbol, payload)
    case LongShortRatio => LongShortBatch(symbol, ExchangeName, payload, TopCategory)
    case Liquidations => LiquidationBatch(symbol, payload)
  }

  /** Every long/short row was stored by this pipeline: Binance, category "top". */
  ghost predicate TopOnly(db: Db) {
    forall k :: k in db.longShortRatio ==> k.exchange == ExchangeName && k.category == TopCategory
  }

  /** The payload a step fetches: the dataset's whole history for `symbol`, at
      the pipeline's interval and exchange, with no time bounds. */
  function Fetched(net: Network, symbol: string, step: Dataset): Result<Value, Error> {
    FetchHistory(net, step, symbol, Interval, ExchangeName, None, None).result
  }

  /** One step: fetch the dataset's history with no time bounds, then insert it.
      The step succeeds exactly when the fetch succeeds and the payload maps
      under the dataset's mapper; it then changes only the dataset's table, as
      its `insert_*` method does, and otherwise it raises the fetch's error or
      the mapping's. */
  function RunStep(db: Db, net: Network, symbol: string, step: Dataset): (r: Result<Db, Error>)
    ensures r.Success? ==> Extends(db, r.value) && r.value.raw == db.raw
    ensures r.Success? && Consistent(db) ==> Consistent(r.value)
    ensures r.Success? && TopOnly(db) ==> TopOnly(r.value)
    ensures Fetched(net, symbol, step).Failure? ==> r == Failure(Fetched(net, symbol, step).error)
    ensures step == OpenInterest ==>
              var f := Fetched(net, symbol, step);
              && (r.Success? <==> f.Success? && MapPayload(f.value, OhlcMapper(symbol)).Success?)
              && (f.Success? && r.Failure? ==> r.error == MapPayload(f.value, OhlcMapper(symbol)).error)
              && (r.Success? ==>
                    && r.value == db.(openInterest := r.value.openInterest)
                    && InsertOhlc(db.openInterest, symbol, f.value) == Success(r.value.openInterest))
    ensures step == FundingRate ==>
              var f := Fetched(net, symbol, step);
              && (r.Success? <==> f.Success? && MapPayload(f.value, OhlcMapper(symbol)).Success?)
              && (f.Success? && r.Failure? ==> r.error == MapPayload(f.value, OhlcMapper(symbol)).error)
              && (r.Success? ==>
                    && r.value == db.(fundingRate := r.value.fundingRate)
                    && InsertOhlc(db.fundingRate, symbol, f.value) == Success(r.value.fundingRate))
    ensures step == LongShortRatio ==>
              var f := Fetched(net, symbol, step);
              && (r.Success? <==> f.Success? && MapPayload(f.value, RatioMapper(symbol, ExchangeName, TopCategory)).Success?)
              && (f.Success? && r.Failure? ==> r.error == MapPayload(f.value, RatioMapper(symbol, ExchangeName, TopCategory)).error)
              && (r.Success? ==>
                    && r.value == db.(longShortRatio := r.value.longShortRatio)
                    && InsertLongShortRatio(db.longShortRatio, symbol, ExchangeName, f.value, TopCategory)
                       == Success(r.value.longShortRatio))
    ensures step == Liquidations ==>
              var f := Fetched(net, symbol, step);
              && (r.Success? <==> f.Success? && MapPayload(f.value, LiquidationMapper(symbol)).Success?)
              && (f.Success? && r.Failure? ==> r.error == MapPayload(f.value, LiquidationMapper(symbol)).error)
              && (r.Success? ==>
                    && r.value == db.(liquidations := r.value.liquidations)
                    && InsertLiquidations(db.liquidations, symbol, f.value) == Success(r.value.liquidations))
  {
    var payload :- Fetched(net, symbol, step);
    Insert(db, StepBatch(step, symbol, payload))
  }

  /** What one step does to the database. The loops below are written over any
      step function; `StepOver(net)` is the one the pipeline runs. */
  type StepFn = (Db, string, Dataset) -> Result<Db, Error>

  function StepOver(net: Network): StepFn {
    (db: Db, symbol: string, step: Dataset) => RunStep(db, net, symbol, step)
  }

  /** A step that, when it succeeds, only adds rows, leaves the raw log alone,
      keeps keys unique, and stores long/short rows as "top" only. */
  ghost predicate OnlyAddsRows(apply: StepFn) {
    forall db, symbol, step :: apply(db, symbol, step).Success? ==>
      && Extends(db, apply(db, symbol, step).value)
      && apply(db, symbol, step).value.raw == db.raw
      && (Consistent(db) ==> Consistent(apply(db, symbol, step).value))
      && (TopOnly(db) ==> TopOnly(apply(db, symbol, step).value))
  }

  lemma PipelineStepOnlyAddsRows(net: Network)
    ensures OnlyAddsRows(StepOver(net))
  {
  }

  /** How one `try` block ended: every step done, or the step at index `at` raised. */
  datatype Outcome = Completed | Failed(at: nat, error: Error)

  datatype SymbolRun = SymbolRun(db: Db, outcome: Outcome)

  /** The body of the `try` block for one symbol: steps run in order until one
      raises; the database keeps what the earlier steps wrote. */
  function RunSteps(db: Db, apply: StepFn, symbol: string, steps: seq<Dataset>): (r: SymbolRun)
    ensures r.outcome.Failed? ==> r.outcome.at < |steps|
    decreases |steps|
  {
    if |steps| == 0 then SymbolRun(db, Completed)
    else
      match apply(db, symbol, steps[0])
      case Failure(e) => SymbolRun(db, Failed(0, e))
      case Success(next) =>
        var rest := RunSteps(next, apply, symbol, steps[1..]);
        SymbolRun(rest.db, if rest.outcome.Failed? then Failed(rest.outcome.at + 1, rest.outcome.error) else Completed)
  }

  /** When step k raises for a symbol, the steps before k stay committed exactly
      as if only they had run, step k itself writes nothing, and the steps after
      k are skipped. */
  lemma {:induction false} FailureStopsTheSymbol(db: Db, apply: StepFn, symbol: string, steps: seq<Dataset>)
    requires RunSteps(db, apply, symbol, steps).outcome.Failed?
    ensures var r := RunSteps(db, apply, symbol, steps);
            && r.outcome.at < |steps|
            && RunSteps(db, apply, symbol, steps[..r.outcome.at]) == SymbolRun(r.db, Completed)
            && apply(r.db, symbol, steps[r.outcome.at]) == Failure(r.outcome.error)
    decreases |steps|
  {
    var first := apply(db, symbol, steps[0]);
    if first.Success? {
      var rest := RunSteps(first.value, apply, symbol, steps[1..]);
      FailureStopsTheSymbol(first.value, apply, symbol, steps[1..]);
      var j := rest.outcome.at;
      assert steps[..j + 1][1..] == steps[1..][..j];
      assert steps[j + 1] == steps[1..][j];
    }
  }

  lemma ExtendsIsTransitive(a: Db, b: Db, c: Db)
    requires Extends(a, b) && Extends(b, c)
    ensures Extends(a, c)
  {
  }

  /** A symbol's steps only add rows: nothing stored is overwritten, keys stay
      unique, the raw log is untouched, and long/short rows stay "top". */
  lemma {:induction false} StepsOnlyAddRows(db: Db, apply: StepFn, symbol: string, steps: seq<Dataset>)
    requires OnlyAddsRows(apply)
    ensures var r := RunSteps(db, apply, symbol, steps);
            && Extends(db, r.db) && r.db.raw == db.raw
            && (Consistent(db) ==> Consistent(r.db))
            && (TopOnly(db) ==> TopOnly(r.db))
    decreases |steps|
  {
    if |steps| > 0 {
      var first := apply(db, symbol, steps[0]);
      if first.Success? {
        StepsOnlyAddRows(first.value, apply, symbol, steps[1..]);
        ExtendsIsTransitive(db, first.value, RunSteps(first.value, apply, symbol, steps[1..]).db);
      }
    }
  }

  /** Running one more step after `steps`: if the block already raised nothing
      more happens; otherwise the new step runs on the database the block left,
      and its success or failure decides the block. */
  lemma {:induction false} RunStepsSnoc(db: Db, apply: StepFn, symbol: string, steps: seq<Dataset>, s: Dataset)
    ensures var pre := RunSteps(db, apply, symbol, steps);
            var next := apply(pre.db, symbol, s);
            RunSteps(db, apply, symbol, steps + [s])
            == if pre.outcome.Failed? then pre
               else if next.Success? then SymbolRun(next.value, Completed)
               else SymbolRun(pre.db, Failed(|steps|, next.error))
    decreases |steps|
  {
    if |steps| == 0 {
      assert [s][1..] == [];
    } else {
      assert (steps + [s])[0] == steps[0];
      assert (steps + [s])[1..] == steps[1..] + [s];
      var first := apply(db, symbol, steps[0]);
      if first.Success? {
        RunStepsSnoc(first.value, apply, symbol, steps[1..], s);
      }
    }
  }

  /** When no step raises, every step ran: each one succeeded on the database
      the steps before it left. */
  lemma {:induction false} CompletedRunsEveryStep(db: Db, apply: StepFn, symbol: string, steps: seq<Dataset>)
    requires RunSteps(db, apply, symbol, steps).outcome.Completed?
    ensures forall k :: 0 <= k < |steps| ==>
              && RunSteps(db, apply, symbol, steps[..k]).outcome.Completed?
              && apply(RunSteps(db, apply, symbol, steps[..k]).db, symbol, steps[k]).Success?
    ensures |steps| == 0 ==> RunSteps(db, apply, symbol, steps).db == db
    ensures |steps| > 0 ==>
              var last := |steps| - 1;
              RunSteps(db, apply, symbol, steps).db
              == apply(RunSteps(db, apply, symbol, steps[..last]).db, symbol, steps[last]).value
    decreases |steps|
  {
    if |steps| > 0 {
      var last := |steps| - 1;
      RunStepsSnoc(db, apply, symbol, steps[..last], steps[last]);
      assert steps[..last] + [steps[last]] == steps;
      var next := apply(db, symbol, steps[0]).value;
      CompletedRunsEveryStep(next, apply, symbol, steps[1..]);
      forall k | 0 < k < |steps|
        ensures && RunSteps(db, apply, symbol, steps[..k]).outcome.Completed?
                && apply(RunSteps(db, apply, symbol, steps[..k]).db, symbol, steps[k]).Success?
      {
        assert steps[..k][1..] == steps[1..][..k - 1];
        assert steps[k] == steps[1..][k - 1];
      }
    }
  }

  /** The outcome of a whole loop: final database and one outcome per item. */
  datatype RunResult = RunResult(db: Db, outcomes: seq<Outcome>)

  /** `for sym in symbols: try ... except: continue`. */
  function Run(db: Db, apply: StepFn, symbols: seq<string>): (r: RunResult)
    ensures |r.outcomes| == |symbols|
    decreases |symbols|
  {
    if |symbols| == 0 then RunResult(db, [])
    else
      var first := RunSteps(db, apply, symbols[0], Steps);
      var rest := Run(first.db, apply, symbols[1..]);
      RunResult(rest.db, [first.outcome] + rest.outcomes)
  }

  /** The symbol loop only adds rows, and keeps keys unique and long/short rows "top". */
  lemma {:induction false} RunOnlyAddsRows(db: Db, apply: StepFn, symbols: seq<string>)
    requires OnlyAddsRows(apply)
    ensures var r := Run(db, apply, symbols);
            && Extends(db, r.db) && r.db.raw == db.raw
            && (Consistent(db) ==> Consistent(r.db))
            && (TopOnly(db) ==> TopOnly(r.db))
    decreases |symbols|
  {
    if |symbols| > 0 {
      var first := RunSteps(db, apply, symbols[0], Steps);
      StepsOnlyAddRows(db, apply, symbols[0], Steps);
      RunOnlyAddsRows(first.db, apply, symbols[1..]);
      ExtendsIsTransitive(db, first.db, Run(first.db, apply, symbols[1..]).db);
    }
  }

  /** Running `a + b` is running `a`, then `b` on the database `a` left behind. */
  lemma {:induction false} RunSplits(db: Db, apply: StepFn, a: seq<string>, b: seq<string>)
    ensures var ra := Run(db, apply, a);
            var rb := Run(ra.db, apply, b);
            Run(db, apply, a + b) == RunResult(rb.db, ra.outcomes + rb.outcomes)
    decreases |a|
  {
    if |a| == 0 {
      assert a + b == b;
    } else {
      var first := RunSteps(db, apply, a[0], Steps);
      assert (a + b)[0] == a[0];
      assert (a + b)[1..] == a[1..] + b;
      RunSplits(first.db, apply, a[1..], b);
    }
  }

  /** Failure isolation across symbols: the i-th symbol always runs, on the
      database the earlier symbols left, whatever their outcomes were. */
  lemma EverySymbolRuns(db: Db, apply: StepFn, symbols: seq<string>, i: nat)
    requires i < |symbols|
    ensures Run(db, apply, symbols).outcomes[i]
            == RunSteps(Run(db, apply, symbols[..i]).db, apply, symbols[i], Steps).outcome
  {
    RunSplits(db, apply, symbols[..i], symbols[i..]);
    assert symbols[..i] + symbols[i..] == symbols;
    assert symbols[i..][0] == symbols[i];
  }

  /** The symbol loop written as a loop. */
  method RunLoop(db0: Db, apply: StepFn, symbols: seq<string>) returns (db: Db, outcomes: seq<Outcome>)
    ensures RunResult(db, outcomes) == Run(db0, apply, symbols)
  {
    db := db0;
    outcomes := [];
    for i := 0 to |symbols|
      invariant RunResult(db, outcomes) == Run(db0, apply, symbols[..i])
    {
      RunSplits(db0, apply, symbols[..i], [symbols[i]]);
      assert symbols[..i + 1] == symbols[..i] + [symbols[i]];
      var r := RunSteps(db, apply, symbols[i], Steps);
      db := r.db;
      outcomes := outcomes + [r.outcome];
    }
    assert symbols[..|symbols|] == symbols;
  }

  /** One endpoint of the raw-log loop: `fetch_generic` with no parameters,
      then `insert_raw_data(name, {}, data)`. */
  function RunExtra(db: Db, net: Network, now: int, name: string, path: string): (r: Result<Db, Error>)
    ensures r.Success? ==> r.value == db.(raw := r.value.raw) && db.raw <= r.value.raw
    ensures var f := FetchGeneric(net, path, None).result;
            && (r.Success? <==> f.Success? && Iterate(f.value).Some?)
            && (f.Failure? ==> r == Failure(f.error))
            && (f.Success? && Iterate(f.value).None? ==> r == Failure(NotIterable))
    ensures r.Success? ==>
              var items := Iterate(FetchGeneric(net, path, None).result.value).value;
              && |r.value.raw| == |db.raw| + |items|
              && forall i :: 0 <= i < |items| ==> r.value.raw[|db.raw| + i] == RawRow(name, map[], now, items[i])
  {
    var data :- FetchGeneric(net, path, None).result;
    InsertRawData(db, name, map[], now, data)
  }

  /** What one extra endpoint does to the database, given its name and path.
      The loop below is written over any such function; `ExtraOver(net, now)`
      is the one the pipeline runs. */
  type ExtraFn = (Db, string, string) -> Result<Db, Error>

  function ExtraOver(net: Network, now: int): ExtraFn {
    (db: Db, name: string, path: string) => RunExtra(db, net, now, name, path)
  }

  /** An endpoint step that, when it succeeds, only extends the raw log. */
  ghost predicate OnlyLogs(fetch: ExtraFn) {
    forall db, name, path :: fetch(db, name, path).Success? ==>
      && fetch(db, name, path).value == db.(raw := fetch(db, name, path).value.raw)
      && db.raw <= fetch(db, name, path).value.raw
  }

  lemma PipelineExtraOnlyLogs(net: Network, now: int)
    ensures OnlyLogs(ExtraOver(net, now))
  {
  }

  /** `for ep_name in [...]: try ... except: log`. Each endpoint is its own `try`
      block, so a failure is reported at that endpoint and the loop goes on. */
  function RunExtras(db: Db, fetch: ExtraFn, endpoints: seq<(string, string)>): (r: RunResult)
    ensures |r.outcomes| == |endpoints|
    ensures OnlyLogs(fetch) ==> r.db == db.(raw := r.db.raw) && db.raw <= r.db.raw
    ensures forall i :: 0 <= i < |endpoints| ==> r.outcomes[i].Completed? || r.outcomes[i].at == 0
    decreases |endpoints|
  {
    if |endpoints| == 0 then RunResult(db, [])
    else
      var step := fetch(db, endpoints[0].0, endpoints[0].1);
      var rest := RunExtras(After(db, step), fetch, endpoints[1..]);
      RunResult(rest.db, [OutcomeOf(step)] + rest.outcomes)
  }

  /** The database after a `try` block with one call: what the call left, or the
      database as it was when the call raised. */
  function After(db: Db, step: Result<Db, Error>): Db {
    if step.Success? then step.value else db
  }

  /** How a one-call `try` block ended. */
  function OutcomeOf(step: Result<Db, Error>): Outcome {
    if step.Success? then Completed else Failed(0, step.error)
  }

  /** Running the endpoints `a + b` is running `a`, then `b` on the database `a` left. */
  lemma {:induction false} ExtrasSplit(db: Db, fetch: ExtraFn, a: seq<(string, string)>, b: seq<(string, string)>)
    ensures var ra := RunExtras(db, fetch, a);
            var rb := RunExtras(ra.db, fetch, b);
            RunExtras(db, fetch, a + b) == RunResult(rb.db, ra.outcomes + rb.outcomes)
    decreases |a|
  {
    if |a| == 0 {
      assert a + b == b;
    } else {
      var step := fetch(db, a[0].0, a[0].1);
      assert (a + b)[0] == a[0];
      assert (a + b)[1..] == a[1..] + b;
      ExtrasSplit(After(db, step), fetch, a[1..], b);
    }
  }

  /** Running one more endpoint: it runs on the database the earlier endpoints
      left; its rows are kept when it succeeds, and nothing changes when it raises. */
  lemma ExtrasSnoc(db: Db, fetch: ExtraFn, endpoints: seq<(string, string)>, e: (string, string))
    ensures var pre := RunExtras(db, fetch, endpoints);
            var step := fetch(pre.db, e.0, e.1);
            RunExtras(db, fetch, endpoints + [e]) == RunResult(After(pre.db, step), pre.outcomes + [OutcomeOf(step)])
  {
    ExtrasSplit(db, fetch, endpoints, [e]);
    var pre := RunExtras(db, fetch, endpoints);
    assert [e][1..] == [];
    assert RunExtras(After(pre.db, fetch(pre.db, e.0, e.1)), fetch, []) == RunResult(After(pre.db, fetch(pre.db, e.0, e.1)), []);
  }

  /** Failure isolation across endpoints: the i-th endpoint is always fetched and
      logged, on the database the earlier endpoints left, whether or not they raised. */
  lemma EveryEndpointRuns(db: Db, fetch: ExtraFn, endpoints: seq<(string, string)>, i: nat)
    requires i < |endpoints|
    ensures var before := RunExtras(db, fetch, endpoints[..i]).db;
            RunExtras(db, fetch, endpoints).outcomes[i] == OutcomeOf(fetch(before, endpoints[i].0, endpoints[i].1))
  {
    ExtrasSplit(db, fetch, endpoints[..i], endpoints[i..]);
    assert endpoints[..i] + endpoints[i..] == endpoints;
    assert endpoints[i..][0] == endpoints[i];
  }

  /** The symbol loop over two symbols: the second runs on what the first left. */
  lemma RunOfTwo(db: Db, apply: StepFn, a: string, b: string)
    ensures var ra := RunSteps(db, apply, a, Steps);
            var rb := RunSteps(ra.db, apply, b, Steps);
            Run(db, apply, [a, b]) == RunResult(rb.db, [ra.outcome, rb.outcome])
  {
    var ra := RunSteps(db, apply, a, Steps);
    var rb := RunSteps(ra.db, apply, b, Steps);
    assert [a, b][1..] == [b] && [b][1..] == [];
    assert Run(rb.db, apply, []) == RunResult(rb.db, []);
    assert Run(ra.db, apply, [b]) == RunResult(rb.db, [rb.outcome]);
  }

  /** The endpoint loop over two endpoints: the second runs on what the first left. */
  lemma ExtrasOfTwo(db: Db, fetch: ExtraFn, a: (string, string), b: (string, string))
    ensures var ra := fetch(db, a.0, a.1);
            var rb := fetch(After(db, ra), b.0, b.1);
            RunExtras(db, fetch, [a, b]) == RunResult(After(After(db, ra), rb), [OutcomeOf(ra), OutcomeOf(rb)])
  {
    var ra := fetch(db, a.0, a.1);
    var mid := After(db, ra);
    var rb := fetch(mid, b.0, b.1);
    assert [a, b][1..] == [b] && [b][1..] == [];
    assert RunExtras(After(mid, rb), fetch, []) == RunResult(After(mid, rb), []);
    assert RunExtras(mid, fetch, [b]) == RunResult(After(mid, rb), [OutcomeOf(rb)]);
  }

  /** The whole `__main__` run against the database found on disk: the BTC
      block runs on that database and the ETH block on what BTC left; then the
      two extra endpoints run in turn on what the symbols left, adding only to
      the raw log. */
  function PipelineRun(db: Db, net: Network, now: int): (r: (RunResult, RunResult))
    ensures |r.0.outcomes| == |Symbols| && |r.1.outcomes| == |ExtraEndpoints|
    ensures Extends(db, r.1.db)
    ensures Consistent(db) ==> Consistent(r.1.db)
    ensures TopOnly(db) ==> TopOnly(r.1.db)
    ensures var btc := RunSteps(db, StepOver(net), "BTC", Steps);
            var eth := RunSteps(btc.db, StepOver(net), "ETH", Steps);
            r.0 == RunResult(eth.db, [btc.outcome, eth.outcome])
    ensures var coins := RunExtra(r.0.db, net, now, "futures_supported_coins", "/futures/supported-coins");
            var mid := After(r.0.db, coins);
            var pairs := RunExtra(mid, net, now, "futures_supported_exchange_pairs", "/futures/supported-exchange-pairs");
            r.1 == RunResult(After(mid, pairs), [OutcomeOf(coins), OutcomeOf(pairs)])
    ensures r.1.db == r.0.db.(raw := r.1.db.raw)
  {
    var typed := Run(db, StepOver(net), Symbols);
    PipelineStepOnlyAddsRows(net);
    RunOnlyAddsRows(db, StepOver(net), Symbols);
    PipelineExtraOnlyLogs(net, now);
    RunOfTwo(db, StepOver(net), Symbols[0], Symbols[1]);
    ExtrasOfTwo(typed.db, ExtraOver(net, now), ExtraEndpoints[0], ExtraEndpoints[1]);
    (typed, RunExtras(typed.db, ExtraOver(net, now), ExtraEndpoints))
  }
}

=== FILE: store.dfy ===
/** `DataStorage`: four typed tables written with `INSERT OR IGNORE` under their
    primary keys, and the append-only `raw_api_data` log.

    A typed table is a map from primary key to row. `executemany` inserts the
    rows in order and silently skips a row whose key is already stored, so the
    first row written for a key is the one that stays. */
module Store {
  import opened Wrappers
  import opened Json
  import opened Errors
  import opened Mapper

  /** PRIMARY KEY(symbol, time) of `open_interest`, `funding_rate` and `liquidations`. */
  datatype SymbolTime = SymbolTime(symbol: string, time: Value)

  /** PRIMARY KEY(symbol, exchange, time, category) of `long_short_ratio`. */
  datatype RatioKey = RatioKey(symbol: string, exchange: string, time: Value, category: string)

  function OhlcKey(row: OhlcRow): SymbolTime {
    SymbolTime(row.symbol, row.time)
  }

  function LiquidationKey(row: LiquidationRow): SymbolTime {
    SymbolTime(row.symbol, row.time)
  }

  function RatioKeyOf(row: RatioRow): RatioKey {
    RatioKey(row.symbol, row.exchange, row.time, row.category)
  }

  /** The keys of a batch of rows. */
  function KeysOf<K, R>(rows: seq<R>, key: R -> K): set<K> {
    set i | 0 <= i < |rows| :: key(rows[i])
  }

  /** Every row of `a` is in `b`, unchanged. */
  ghost predicate SubTable<K, R>(a: map<K, R>, b: map<K, R>) {
    forall k :: k in a ==> k in b && b[k] == a[k]
  }

  /** Every row is stored under its own primary key, so no two stored rows share a key. */
  ghost predicate WellKeyed<K, R>(table: map<K, R>, key: R -> K) {
    forall k :: k in table ==> key(table[k]) == k
  }

  /** Row `i` is the first row of the batch with key `k`. */
  ghost predicate FirstWithKey<K, R>(rows: seq<R>, key: R -> K, i: int, k: K) {
    && 0 <= i < |rows|
    && key(rows[i]) == k
    && forall j :: 0 <= j < i ==> key(rows[j]) != k
  }

  /** `executemany("INSERT OR IGNORE ...", rows)`: rows are inserted in order,
      and a row whose key is already stored is skipped. Stored rows are never
      overwritten, and the table ends up holding exactly the old keys and the
      batch's keys. */
  function InsertOrIgnore<K, R>(table: map<K, R>, rows: seq<R>, key: R -> K): (t: map<K, R>)
    ensures SubTable(table, t)
    ensures t.Keys == table.Keys + KeysOf(rows, key)
    decreases |rows|
  {
    if |rows| == 0 then table
    else
      var row := rows[0];
      var next := if key(row) in table then table else table[key(row) := row];
      InsertOrIgnore(next, rows[1..], key)
  }

  /** A key the batch adds holds the FIRST row of the batch with that key. */
  lemma {:induction false} StoredRowIsFirstOfItsKey<K, R>(table: map<K, R>, rows: seq<R>, key: R -> K, k: K)
    requires k in InsertOrIgnore(table, rows, key) && k !in table
    ensures exists i :: FirstWithKey(rows, key, i, k) && InsertOrIgnore(table, rows, key)[k] == rows[i]
    decreases |rows|
  {
    var row := rows[0];
    var next := if key(row) in table then table else table[key(row) := row];
    assert InsertOrIgnore(table, rows, key) == InsertOrIgnore(next, rows[1..], key);
    if key(row) == k {
      assert FirstWithKey(rows, key, 0, k);
    } else {
      StoredRowIsFirstOfItsKey(next, rows[1..], key, k);
      var i :| FirstWithKey(rows[1..], key, i, k) && InsertOrIgnore(next, rows[1..], key)[k] == rows[1..][i];
      assert FirstWithKey(rows, key, i + 1, k);
    }
  }

  /** A table where every row sits under its own key stays that way. */
  lemma InsertKeepsWellKeyed<K, R>(table: map<K, R>, rows: seq<R>, key: R -> K)
    ensures WellKeyed(table, key) ==> WellKeyed(InsertOrIgnore(table, rows, key), key)
  {
    var t := InsertOrIgnore(table, rows, key);
    if WellKeyed(table, key) {
      forall k | k in t
        ensures key(t[k]) == k
      {
        if k !in table {
          StoredRowIsFirstOfItsKey(table, rows, key, k);
        }
      }
    }
  }

  /** Every key a batch adds holds the first row of the batch with that key. */
  lemma StoredRowsAreFirstOfTheirKey<K, R>(table: map<K, R>, rows: seq<R>, key: R -> K)
    ensures var t := InsertOrIgnore(table, rows, key);
            forall k :: k in t && k !in table ==> exists i :: FirstWithKey(rows, key, i, k) && t[k] == rows[i]
  {
    var t := InsertOrIgnore(table, rows, key);
    forall k | k in t && k !in table
      ensures exists i :: FirstWithKey(rows, key, i, k) && t[k] == rows[i]
    {
      StoredRowIsFirstOfItsKey(table, rows, key, k);
    }
  }

  /** A batch whose every key is already stored leaves the table unchanged. */
  lemma PresentKeysAreIgnored<K, R>(table: map<K, R>, rows: seq<R>, key: R -> K)
    requires forall i :: 0 <= i < |rows| ==> key(rows[i]) in table
    ensures InsertOrIgnore(table, rows, key) == table
  {
  }

  /** Inserting the same batch twice leaves the table as inserting it once. */
  lemma InsertOrIgnoreIsIdempotent<K, R>(table: map<K, R>, rows: seq<R>, key: R -> K)
    ensures InsertOrIgnore(InsertOrIgnore(table, rows, key), rows, key) == InsertOrIgnore(table, rows, key)
  {
  }

  /** A row of `raw_api_data`: endpoint name, query parameters, retrieval time,
      and one record of the payload. */
  datatype RawRow = RawRow(endpoint: string, params: map<string, Value>, retrievedAt: int, data: Value)

  /** `executemany("INSERT INTO raw_api_data ...", rows)`: one row per record, in
      order, after the rows already logged. There is no key, so nothing is skipped. */
  function AppendRaw(log: seq<RawRow>, endpoint: string, params: map<string, Value>, now: int,
                     records: seq<Value>): (r: seq<RawRow>)
    ensures |r| == |log| + |records|
    ensures r[..|log|] == log
    ensures forall i :: 0 <= i < |records| ==> r[|log| + i] == RawRow(endpoint, params, now, records[i])
    decreases |records|
  {
    if |records| == 0 then log
    else AppendRaw(log + [RawRow(endpoint, params, now, records[0])], endpoint, params, now, records[1..])
  }

  /** Logging the same record twice keeps both rows, unlike a typed table. */
  lemma RawLogKeepsDuplicates(log: seq<RawRow>, endpoint: string, params: map<string, Value>, now: int, record: Value)
    ensures var r := AppendRaw(AppendRaw(log, endpoint, params, now, [record]), endpoint, params, now, [record]);
            |r| == |log| + 2 && r[|log|] == r[|log| + 1] == RawRow(endpoint, params, now, record)
  {
  }

  /** The database file: the four typed tables and the raw log. */
  datatype Db = Db(openInterest: map<SymbolTime, OhlcRow>,
                   fundingRate: map<SymbolTime, OhlcRow>,
                   longShortRatio: map<RatioKey, RatioRow>,
                   liquidations: map<SymbolTime, LiquidationRow>,
                   raw: seq<RawRow>)

  /** Every typed table stores each row under its own primary key. */
  ghost predicate Consistent(db: Db) {
    && WellKeyed(db.openInterest, OhlcKey)
    && WellKeyed(db.fundingRate, OhlcKey)
    && WellKeyed(db.longShortRatio, RatioKeyOf)
    && WellKeyed(db.liquidations, LiquidationKey)
  }

  /** `after` keeps every stored row of `before`, and its raw log starts with `before`'s. */
  ghost predicate Extends(before: Db, after: Db) {
    && SubTable(before.openInterest, after.openInterest)
    && SubTable(before.fundingRate, after.fundingRate)
    && SubTable(before.longShortRatio, after.longShortRatio)
    && SubTable(before.liquidations, after.liquidations)
    && before.raw <= after.raw
  }

  function OhlcMapper(symbol: string): Value -> Result<OhlcRow, Error> {
    d => MapOhlc(symbol, d)
  }

  function LiquidationMapper(symbol: string): Value -> Result<LiquidationRow, Error> {
    d => MapLiquidation(symbol, d)
  }

  function RatioMapper(symbol: string, exchange: string, category: string): Value -> Result<RatioRow, Error> {
    d => MapRatio(symbol, exchange, category, d)
  }

  /** Every row mapped for `symbol` is keyed by `symbol`. */
  lemma OhlcKeysCarrySymbol(symbol: string, data: Value, rows: seq<OhlcRow>)
    requires MapPayload(data, OhlcMapper(symbol)) == Success(rows)
    ensures forall k :: k in KeysOf(rows, OhlcKey) ==> k.symbol == symbol
  {
  }

  /** Every liquidation row mapped for `symbol` is keyed by `symbol`. */
  lemma LiquidationKeysCarrySymbol(symbol: string, data: Value, rows: seq<LiquidationRow>)
    requires MapPayload(data, LiquidationMapper(symbol)) == Success(rows)
    ensures forall k :: k in KeysOf(rows, LiquidationKey) ==> k.symbol == symbol
  {
  }

  /** Every ratio row is keyed by the symbol, exchange and category it was mapped with. */
  lemma RatioKeysCarryTags(symbol: string, exchange: string, category: string, data: Value, rows: seq<RatioRow>)
    requires MapPayload(data, RatioMapper(symbol, exchange, category)) == Success(rows)
    ensures forall k :: k in KeysOf(rows, RatioKeyOf) ==>
                          k.symbol == symbol && k.exchange == exchange && k.category == category
  {
  }

  /** One call of an `insert_*` method. */
  datatype Batch =
    | OpenInterestBatch(symbol: string, data: Value)
    | FundingRateBatch(symbol: string, data: Value)
    | LongShortBatch(symbol: string, exchange: string, data: Value, category: string)
    | LiquidationBatch(symbol: string, data: Value)

  /** `insert_open_interest`, and `insert_funding_rate`, which is the same code on another table:
      all rows are built first, so a bad record fails the call with the table
      untouched; otherwise the rows go in under INSERT OR IGNORE. */
  function InsertOhlc(table: map<SymbolTime, OhlcRow>, symbol: string, data: Value): (r: Result<map<SymbolTime, OhlcRow>, Error>)
    ensures r.Success? <==> MapPayload(data, OhlcMapper(symbol)).Success?
    ensures r.Failure? ==> r.error == MapPayload(data, OhlcMapper(symbol)).error
    ensures r.Success? ==> r.value.Keys == table.Keys + KeysOf(MapPayload(data, OhlcMapper(symbol)).value, OhlcKey)
    ensures r.Success? ==> forall k :: k in r.value && k !in table ==>
                             exists i :: && FirstWithKey(MapPayload(data, OhlcMapper(symbol)).value, OhlcKey, i, k)
                                         && r.value[k] == MapPayload(data, OhlcMapper(symbol)).value[i]
    ensures r.Success? ==> SubTable(table, r.value)
    ensures r.Success? ==> forall k :: k in r.value && k !in table ==> k.symbol == symbol
    ensures r.Success? && WellKeyed(table, OhlcKey) ==> WellKeyed(r.value, OhlcKey)
  {
    match MapPayload(data, OhlcMapper(symbol))
    case Failure(e) => Failure(e)
    case Success(rows) =>
      OhlcKeysCarrySymbol(symbol, data, rows);
      InsertKeepsWellKeyed(table, rows, OhlcKey);
      StoredRowsAreFirstOfTheirKey(table, rows, OhlcKey);
      Success(InsertOrIgnore(table, rows, OhlcKey))
  }

  /** `insert_liquidations`. */
  function InsertLiquidations(table: map<SymbolTime, LiquidationRow>, symbol: string, data: Value)
    : (r: Result<map<SymbolTime, LiquidationRow>, Error>)
    ensures r.Success? <==> MapPayload(data, LiquidationMapper(symbol)).Success?
    ensures r.Failure? ==> r.error == MapPayload(data, LiquidationMapper(symbol)).error
    ensures r.Success? ==>
              r.value.Keys == table.Keys + KeysOf(MapPayload(data, LiquidationMapper(symbol)).value, LiquidationKey)
    ensures r.Success? ==> forall k :: k in r.value && k !in table ==>
                             exists i :: && FirstWithKey(MapPayload(data, LiquidationMapper(symbol)).value, LiquidationKey, i, k)
                                         && r.value[k] == MapPayload(data, LiquidationMapper(symbol)).value[i]
    ensures r.Success? ==> SubTable(table, r.value)
    ensures r.Success? ==> forall k :: k in r.value && k !in table ==> k.symbol == symbol
    ensures r.Success? && WellKeyed(table, LiquidationKey) ==> WellKeyed(r.value, LiquidationKey)
  {
    match MapPayload(data, LiquidationMapper(symbol))
    case Failure(e) => Failure(e)
    case Success(rows) =>
      LiquidationKeysCarrySymbol(symbol, data, rows);
      InsertKeepsWellKeyed(table, rows, LiquidationKey);
      StoredRowsAreFirstOfTheirKey(table, rows, LiquidationKey);
      Success(InsertOrIgnore(table, rows, LiquidationKey))
  }

  /** `insert_long_short_ratio`: every new row carries the given exchange and
      category, so rows that differ only in category sit side by side. */
  function InsertLongShortRatio(table: map<RatioKey, RatioRow>, symbol: string, exchange: string, data: Value,
                                category: string): (r: Result<map<RatioKey, RatioRow>, Error>)
    ensures r.Success? <==> MapPayload(data, RatioMapper(symbol, exchange, category)).Success?
    ensures r.Failure? ==> r.error == MapPayload(data, RatioMapper(symbol, exchange, category)).error
    ensures r.Success? ==>
              r.value.Keys == table.Keys + KeysOf(MapPayload(data, RatioMapper(symbol, exchange, category)).value, RatioKeyOf)
    ensures r.Success? ==> forall k :: k in r.value && k !in table ==>
                             exists i :: && FirstWithKey(MapPayload(data, RatioMapper(symbol, exchange, category)).value,
                                                         RatioKeyOf, i, k)
                                         && r.value[k] == MapPayload(data, RatioMapper(symbol, exchange, category)).value[i]
    ensures r.Success? ==> SubTable(table, r.value)
    ensures r.Success? ==> forall k :: k in r.value && k !in table ==>
                             k.symbol == symbol && k.exchange == exchange && k.category == category
    ensures r.Success? && WellKeyed(table, RatioKeyOf) ==> WellKeyed(r.value, RatioKeyOf)
  {
    match MapPayload(data, RatioMapper(symbol, exchange, category))
    case Failure(e) => Failure(e)
    case Success(rows) =>
      RatioKeysCarryTags(symbol, exchange, category, data, rows);
      InsertKeepsWellKeyed(table, rows, RatioKeyOf);
      StoredRowsAreFirstOfTheirKey(table, rows, RatioKeyOf);
      Success(InsertOrIgnore(table, rows, RatioKeyOf))
  }

  /** One `insert_*` call against the database: only the batch's table changes,
      no stored row is overwritten, and keys stay unique. */
  function Insert(db: Db, b: Batch): (r: Result<Db, Error>)
    ensures r.Success? ==> Extends(db, r.value)
    ensures r.Success? ==> r.value.raw == db.raw
    ensures r.Success? && Consistent(db) ==> Consistent(r.value)
    ensures r.Success? && !b.LongShortBatch? ==> r.value.longShortRatio == db.longShortRatio
    ensures r.Success? && b.LongShortBatch? ==>
              forall k :: k in r.value.longShortRatio && k !in db.longShortRatio ==>
                k.exchange == b.exchange && k.category == b.category
    ensures b.OpenInterestBatch? ==>
              && (r.Success? <==> MapPayload(b.data, OhlcMapper(b.symbol)).Success?)
              && (r.Success? ==>
                    && r.value == db.(openInterest := r.value.openInterest)
                    && r.value.openInterest.Keys
                       == db.openInterest.Keys + KeysOf(MapPayload(b.data, OhlcMapper(b.symbol)).value, OhlcKey))
    ensures b.FundingRateBatch? ==>
              && (r.Success? <==> MapPayload(b.data, OhlcMapper(b.symbol)).Success?)
              && (r.Success? ==>
                    && r.value == db.(fundingRate := r.value.fundingRate)
                    && r.value.fundingRate.Keys
                       == db.fundingRate.Keys + KeysOf(MapPayload(b.data, OhlcMapper(b.symbol)).value, OhlcKey))
    ensures b.LongShortBatch? ==>
              && (r.Success? <==> MapPayload(b.data, RatioMapper(b.symbol, b.exchange, b.category)).Success?)
              && (r.Success? ==>
                    && r.value == db.(longShortRatio := r.value.longShortRatio)
                    && r.value.longShortRatio.Keys
                       == db.longShortRatio.Keys
                          + KeysOf(MapPayload(b.data, RatioMapper(b.symbol, b.exchange, b.category)).value, RatioKeyOf))
    ensures b.LiquidationBatch? ==>
              && (r.Success? <==> MapPayload(b.data, LiquidationMapper(b.symbol)).Success?)
              && (r.Success? ==>
                    && r.value == db.(liquidations := r.value.liquidations)
                    && r.value.liquidations.Keys
                       == db.liquidations.Keys + KeysOf(MapPayload(b.data, LiquidationMapper(b.symbol)).value, LiquidationKey))
    ensures r.Success? && b.OpenInterestBatch? ==> InsertOhlc(db.openInterest, b.symbol, b.data) == Success(r.value.openInterest)
    ensures r.Success? && b.FundingRateBatch? ==> InsertOhlc(db.fundingRate, b.symbol, b.data) == Success(r.value.fundingRate)
    ensures r.Success? && b.LongShortBatch? ==>
              InsertLongShortRatio(db.longShortRatio, b.symbol, b.exchange, b.data, b.category) == Success(r.value.longShortRatio)
    ensures r.Success? && b.LiquidationBatch? ==>
              InsertLiquidations(db.liquidations, b.symbol, b.data) == Success(r.value.liquidations)
    ensures r.Failure? && (b.OpenInterestBatch? || b.FundingRateBatch?) ==>
              r.error == MapPayload(b.data, OhlcMapper(b.symbol)).error
    ensures r.Failure? && b.LongShortBatch? ==>
              r.error == MapPayload(b.data, RatioMapper(b.symbol, b.exchange, b.category)).error
    ensures r.Failure? && b.LiquidationBatch? ==> r.error == MapPayload(b.data, LiquidationMapper(b.symbol)).error
  {
    match b
    case OpenInterestBatch(symbol, data) =>
      var t :- InsertOhlc(db.openInterest, symbol, data);
      Success(db.(openInterest := t))
    case FundingRateBatch(symbol, data) =>
      var t :- InsertOhlc(db.fundingRate, symbol, data);
      Success(db.(fundingRate := t))
    case LongShortBatch(symbol, exchange, data, category) =>
      var t :- InsertLongShortRatio(db.longShortRatio, symbol, exchange, data, category);
      Success(db.(longShortRatio := t))
    case LiquidationBatch(symbol, data) =>
      var t :- InsertLiquidations(db.liquidations, symbol, data);
      Success(db.(liquidations := t))
  }

  /** Repeating a successful `insert_*` call changes nothing. */
  lemma InsertIsIdempotent(db: Db, b: Batch)
    requires Insert(db, b).Success?
    ensures Insert(Insert(db, b).value, b) == Insert(db, b)
  {
    match b
    case OpenInterestBatch(symbol, data) =>
      InsertOrIgnoreIsIdempotent(db.openInterest, MapPayload(data, OhlcMapper(symbol)).value, OhlcKey);
    case FundingRateBatch(symbol, data) =>
      InsertOrIgnoreIsIdempotent(db.fundingRate, MapPayload(data, OhlcMapper(symbol)).value, OhlcKey);
    case LongShortBatch(symbol, exchange, data, category) =>
      InsertOrIgnoreIsIdempotent(db.longShortRatio, MapPayload(data, RatioMapper(symbol, exchange, category)).value,
                                 RatioKeyOf);
    case LiquidationBatch(symbol, data) =>
      InsertOrIgnoreIsIdempotent(db.liquidations, MapPayload(data, LiquidationMapper(symbol)).value, LiquidationKey);
  }

  /** `insert_raw_data`: one log row per element of the payload, in order, each
      tagged with the endpoint name; the typed tables are not touched. */
  function InsertRawData(db: Db, endpoint: string, params: map<string, Value>, now: int, data: Value)
    : (r: Result<Db, Error>)
    ensures r.Success? <==> Iterate(data).Some?
    ensures r.Success? ==> r.value == db.(raw := r.value.raw)
    ensures r.Success? ==>
              && |r.value.raw| == |db.raw| + |Iterate(data).value|
              && db.raw <= r.value.raw
              && forall i :: 0 <= i < |Iterate(data).value| ==>
                   r.value.raw[|db.raw| + i] == RawRow(endpoint, params, now, Iterate(data).value[i])
  {
    match Iterate(data)
    case None => Failure(NotIterable)
    case Some(records) =>
      var log := AppendRaw(db.raw, endpoint, params, now, records);
      assert log[..|db.raw|] == db.raw;
      Success(db.(raw := log))
  }
}

=== FILE: wrappers.dfy ===
/** Failure-compatible wrappers used throughout the model: `Option` for Python's
    "value or None" and `Result` for "value or raised exception". `Result` supports
    `:-`, which mirrors an exception propagating out of a Python expression. */
module Wrappers {

  datatype Option<+T> = None | Some(value: T) {

    /** The value, or `default` when absent (Python's `d.get(k, default)`). */
    function GetOr(default: T): T {
      match this
      case Some(v) => v
      case None => default
    }
  }

  datatype Result<+T, +E> = Success(value: T) | Failure(error: E) {

    predicate IsFailure() {
      Failure?
    }

    function PropagateFailure<U>(): Result<U, E>
      requires Failure?
    {
      Failure(error)
    }

    function Extract(): T
      requires Success?
    {
      value
    }
  }
}
